=== FILE: README.md ===
# MedFind string core in Dafny

MedFind is a small offline web app that keeps a medicine cabinet inventory:
records with a name, a compartment and an optional barcode, stored in the
browser's IndexedDB object store `meds`. This project models the pure logic
in `app.js` and proves properties about it:

- the CSV export `toCSV` and the CSV import parser `parseCSV`, with its line
  splitting, header normalisation, quote-toggling character scanner and value
  cleaning (modules `CsvWriter`, `CsvReader`);
- the conditional round trip between them (module `CsvRoundTrip`);
- `escapeHtml` (module `Html`);
- the search filter and name sort of `refresh` (module `Search`);
- the form validation of `form.onsubmit` and the row filter and counting loop
  of `importFile.onchange` (module `Forms`), over an abstract store (module
  `Store`);
- the JavaScript string operations these use — `trim`, ASCII
  `toLowerCase`, `includes`, `split`, `join`, decimal printing of a key —
  in module `Strings`, and the record types in `Records`.

Strings are `seq<char>`, one element per Unicode scalar value (a JavaScript
string is a sequence of UTF-16 code units; see "## Left out"). A record field
that may be absent (`r.name || ''`) is an `Option<string>`, and `Records.Text`
is the `|| ''`. A parsed CSV row is a `map<string, string>`.

The round trip between export and import does not hold for every record. A value
that begins or ends with `"` loses that quote on import, because `""` is read
as a literal quote before the quote toggle is consulted (app.js:286) and one
outer quote is stripped afterwards (app.js:293). A value with leading or
trailing whitespace comes back trimmed, and a value containing a line break
splits the record over two lines. `CsvRoundTrip.ExportThenImport` therefore
assumes `Exportable` records: values with no line break, no surrounding
whitespace and no quote at either end. Under that assumption it proves the
exact row the import produces. An empty value survives, because the `""` it
is exported as reads back as `"` and is then stripped to `''`.

## Model

| member | source | states |
|---|---|---|
| Strings.Trim | app.js:219-221 | `trim` leaves no whitespace at either end, returns `''` exactly for an all-whitespace string, leaves an already trimmed string alone and returns a piece of its input |
| Strings.TrimParts | app.js:219-221 | what `trim` removes is whitespace only: the input is some whitespace, then the result, then some whitespace |
| Strings.TrimIsTrimOf | app.js:219-221 | `trim`'s result is a trim of its input: trimmed, with only whitespace cut from either end |
| Strings.TrimOfIsTrim | app.js:219-221 | any trim of a string is exactly what `trim` returns |
| Strings.TrimOfUnique | app.js:219-221 | a trimmed string with whitespace added at either end trims back to itself |
| Strings.TrimAppendWhitespace | app.js:277 | trimming ignores one more whitespace character (such as the `\r` of a CRLF line end) at the end of a line |
| Strings.LowerChar | app.js:189 | a letter `A`–`Z` becomes the letter 32 code points above it, any other character is kept, and no upper-case ASCII letter comes out |
| Strings.Lower | app.js:189 | lower-casing maps every character on its own, as `LowerChar` does, so the length is kept, no upper-case ASCII letter is left and a string without one is unchanged |
| Strings.LowerKeepsTrimmed | app.js:279 | lower-casing a trimmed string leaves it trimmed |
| Strings.IncludesIsInfix | app.js:192-194 | `includes` is true exactly when the needle occurs as a contiguous piece of the haystack |
| Strings.Split | app.js:279 | `split` on one character gives one piece more than there are separators, no piece contains the separator, and joining the pieces gives back the text |
| Strings.SplitJoin | app.js:273 | splitting the `join` of separator-free pieces on the same separator gives back the pieces |
| Strings.SplitAppend | app.js:277 | splitting text glued at a separator is the concatenation of splitting both sides |
| Strings.DecimalText | app.js:272 | a key is printed as a non-empty run of decimal digits with no leading zero |
| Strings.DecimalRoundTrip | app.js:272 | reading back the printed key gives the key |
| Html.EscapeHtml | app.js:268 | the output has none of `<`, `>`, `"`, `'`, it is never shorter than the input, and a string without special characters is returned unchanged |
| Html.EscapeHtmlAppend | app.js:268 | escaping works character by character: escaping a concatenation concatenates the escapes |
| Html.EscapeHtmlRoundTrip | app.js:268 | decoding the five entities recovers the original string, so no information is lost |
| CsvWriter.DoubleQuotes | app.js:272 | doubling adds exactly one character per `"` and keeps the first character |
| CsvWriter.DoubleQuotesChars | app.js:272 | doubling quotes neither adds nor removes any other character |
| CsvWriter.Quote | app.js:272 | a quoted field starts and ends with `"` |
| CsvWriter.QuoteChars | app.js:272 | quoting adds no character other than `"` |
| CsvWriter.CsvLine | app.js:272 | a record line starts with the unquoted decimal key and a comma, ends with `"`, and a missing barcode ends it in `,""` |
| CsvWriter.CsvLineBreaks | app.js:272 | a record line contains a line break exactly when one of its text fields does |
| CsvWriter.CsvLinesNoBreak | app.js:271-272 | records without line breaks give lines without line breaks |
| CsvWriter.ToCsv | app.js:269-274 | the export begins with the header line, and `toCSV([])` is the header alone (the export button itself refuses an empty inventory, app.js:238) |
| CsvWriter.ToCsvLines | app.js:269-274 | when no field holds a line break, the export's lines are the header followed by exactly one line per record, in order |
| CsvReader.DropCarriageReturn | app.js:277 | the optional `\r` before a line break is removed, and only that: a piece ending in `\r` loses exactly that character, any other piece is unchanged |
| CsvReader.SplitLines | app.js:277 | splitting into lines gives one line per line break plus one, none holding a `\n` |
| CsvReader.SplitLinesJoin | app.js:277 | splitting lines joined by `\n` gives back the lines, when no line holds a `\n` and none but the last ends in `\r` |
| CsvReader.SplitLinesAppend | app.js:277 | the lines of text glued at a line break are the lines of both sides |
| CsvReader.TrimAll | app.js:277 | every line is trimmed and none is lost |
| CsvReader.DropEmpty | app.js:277 | `filter(Boolean)` keeps only non-empty lines and never adds any |
| CsvReader.DropEmptyKeepsMembers | app.js:277 | every surviving line is one of the original lines |
| CsvReader.DropEmptyAppend | app.js:277 | dropping blank lines commutes with concatenation |
| CsvReader.NonBlank | app.js:277 | the lines the parser works on are non-empty and trimmed |
| CsvReader.NonBlankKeepsTidyLines | app.js:277 | non-empty trimmed lines all survive, in order |
| CsvReader.StripOuterQuotes | app.js:293 | at most one leading and one trailing `"` are removed, a value without outer quotes is unchanged, a fully quoted value loses exactly its outer quotes, and a value quoted at one end only loses exactly that quote |
| CsvReader.HeaderNames | app.js:279 | the header line gives one name per comma-separated cell, and name `i` is cell `i` with an opening and a closing pad cut (at most one `"` and the whitespace inside it at each end, a `"` at either end always cut) and the rest lower-cased; every name is trimmed and free of upper-case ASCII letters |
| CsvReader.HeaderNameParts | app.js:279 | any header cell, upper-case letters or not, is an opening pad, a trimmed middle and a closing pad, with its name the lower-cased middle |
| CsvReader.HeaderNamesOfCells | app.js:279 | column `i` of a header line is named by cell `i`, its pads cut and the rest lower-cased |
| CsvReader.HeaderNameOfLowerCell | app.js:279 | for a header cell without upper-case letters, lower-casing changes nothing: the name is the cell with its outer quotes stripped and then trimmed |
| CsvReader.ScanFrom | app.js:283-291 | the scanner keeps the fields already read and emits at most one field per comma plus one |
| CsvReader.ScanFields | app.js:282-291 | a data line gives at most one field per comma plus one |
| CsvReader.ScanPlain | app.js:284-290 | characters other than `"` are copied into the current field; inside quotes a comma is copied too, not treated as a separator |
| CsvReader.UnmatchedQuoteTakesRest | app.js:287 | an unmatched quote does not fail: the rest of the line becomes the last field |
| CsvReader.ScanUnquotedIsSplit | app.js:283-291 | on a line without quotes the scanner is a split on commas that drops a trailing empty field |
| CsvReader.ScanFieldsUnquoted | app.js:282-291 | a quote-free data line scans to its comma-separated pieces less a trailing empty one |
| CsvReader.FieldValue | app.js:293 | a value is trimmed, is `''` for a missing field, and is a piece of its field |
| CsvReader.CleanParts | app.js:293 | cleaning a field removes only an opening pad (whitespace, or a `"` followed by whitespace) and a closing pad (its mirror image), and a field that starts with `"` (or ends with one, when longer than one character) loses that quote |
| CsvReader.FieldValueParts | app.js:293 | the value of a present field is that field minus an opening and a closing pad |
| CsvReader.Assign | app.js:292-293 | the object has exactly the header names as keys, and each holds the value of the last column with that name |
| CsvReader.ColumnValues | app.js:293 | there is one value per header column, each trimmed; a column past the last field gets `''`, any other a piece of the field at its position |
| CsvReader.MakeRow | app.js:292-294 | the object built for a line satisfies `RowOf`: one key per header name, holding the cleaned field of its column (`''` when the line is short), every value trimmed |
| CsvReader.LastIndex | app.js:293 | every header name has a last column carrying it |
| CsvReader.MakeRows | app.js:280-295 | there is one row per data line, in order, each the `RowOf` of its line |
| CsvReader.ParseLines | app.js:278-296 | no lines give no rows; otherwise there is one row per line after the header, and each is the `RowOf` of that line |
| CsvReader.ParseCsv | app.js:275-297 | parsing never fails; it gives one row per non-blank line after the first non-blank (header) line, each row the `RowOf` of its line |
| CsvReader.BlankLineBetween | app.js:277 | a whitespace-only line between two parts of a file does not change the result |
| CsvReader.BlankLineFirst | app.js:277 | a whitespace-only first line does not change the result |
| CsvReader.BlankLineLast | app.js:277 | a whitespace-only last line does not change the result |
| CsvRoundTrip.ScanDoubled | app.js:286 | inside quotes, a doubled-quote text scans to the original text |
| CsvRoundTrip.ScanQuoted | app.js:286-287 | an exported quoted field whose text does not start with `"`, followed by anything but `"`, scans to its original text, and an empty one to a single `"` |
| CsvRoundTrip.ScanQuotedField | app.js:286-288 | a quoted field followed by a comma becomes one field and the scan goes on unquoted |
| CsvRoundTrip.ScanCsvLine | app.js:283-291 | an exported record line scans to exactly four fields: the decimal key and the three texts |
| CsvRoundTrip.FieldValueOfTidy | app.js:293 | cleaning the scanned field of a tidy value gives the value back, including `''` |
| CsvRoundTrip.HeaderNamesOfLowerCells | app.js:279 | a header line whose cells have no upper-case letters names each column by its cell with outer quotes stripped and then trimmed |
| CsvRoundTrip.HeaderColumns | app.js:279 | the exported header reads back as the names `id`, `name`, `compartment`, `barcode` |
| CsvRoundTrip.RowOfFour | app.js:292-293 | a row under four distinct header names is the map of those names to the four cleaned fields |
| CsvRoundTrip.RowOfExport | app.js:292-293 | the row read from an exported record line is the record's key text and its three texts |
| CsvRoundTrip.CsvLineTidy | app.js:272 | the line of a record with no line feed in its texts is a non-empty trimmed line without a line break |
| CsvRoundTrip.NonBlankLinesOfTidy | app.js:277 | joining tidy lines with `\n` and reading them back gives the same lines |
| CsvRoundTrip.ExportLines | app.js:273 | when no record has a line feed in its texts, the parser sees the exported header and one line per exported record |
| CsvRoundTrip.ParseCsvOfLines | app.js:278-294 | text whose non-blank lines are a header and data lines parses to one `RowOf` row per data line |
| CsvRoundTrip.ExportThenImport | app.js:269-297 | exporting `Exportable` records and importing the file gives one row per record, holding the key as decimal text and the name, compartment and barcode unchanged |
| Search.NormalizeQuery | app.js:189 | the normalised query is empty exactly when the query is blank, and has no upper-case ASCII letter |
| Search.Filter | app.js:190-194 | the filter keeps exactly the records the query matches, each exactly as often as the input holds it, and no other record |
| Search.FilterCons | app.js:190-194 | filtering a record followed by a run gives the record, if kept, followed by the run's filter |
| Search.FilterAppend | app.js:190-194 | filtering two runs one after the other gives the first run's filter followed by the second's, so the input order is kept |
| Search.FilterEmptyQuery | app.js:191 | an empty query keeps every record, in order |
| Search.KeepMeansInfix | app.js:191-194 | with a non-empty query, a record is kept exactly when its lower-cased name, compartment or barcode contains the query as a piece |
| Search.LexLeqTotal | app.js:195 | any two names are comparable |
| Search.LexLeqTransitive | app.js:195 | the name order is transitive |
| Search.LexLeqAntisymmetric | app.js:195 | two names each no later than the other are equal |
| Search.Insert | app.js:195 | inserting into a list sorted by name keeps it sorted and adds exactly that record |
| Search.SortByName | app.js:195 | the sort returns a permutation of its input that is ordered by name |
| Search.Refresh | app.js:187-195 | the listed records are sorted by name and are exactly the stored records the normalised query keeps, each as often as the store holds it |
| Search.BlankQueryKeepsAll | app.js:189-191 | a blank query lists every stored record, each exactly once per occurrence |
| Store.Empty | app.js:16-20 | a new store is consistent and holds no record |
| Store.Add | app.js:36-43 | `add` stores the record under the generator's current key, which is fresh, advances the generator by one, keeps the store consistent, leaves other records alone and grows the store by one |
| Store.Put | app.js:44-51 | `put` stores the record under its own key, replacing only that key, keeps the store consistent and never moves the generator back |
| Forms.Submit | app.js:217-230 | a submission is refused exactly when the trimmed name or compartment is empty; otherwise it updates when the key field is set and creates when not, always with filled text, each saved field being the trim of the entered one: trimmed, with only whitespace cut from either end, which by `Strings.TrimOfIsTrim` is exactly `value.trim()` |
| Forms.EditThenSave | app.js:208 | saving a record loaded by the edit button without changes writes back the same record, with an absent barcode becoming `''` |
| Forms.Apply | app.js:217-230 | a submission keeps the store consistent, keeps every record filled, changes nothing when refused and deletes nothing |
| Forms.DraftOf | app.js:252 | an imported row gives a record with the row's own non-empty name and compartment, and the row's barcode or `''` when it has none |
| Forms.ImportDrafts | app.js:249-253 | the import adds at most one record per row, each with a non-empty name and compartment |
| Forms.ImportDraftsAppend | app.js:250-253 | importing two batches of rows adds the records of the first, then those of the second |
| Forms.ImportDraftsSnoc | app.js:250-253 | one more row adds its record exactly when it has a name and a compartment, with `''` for a missing barcode |
| Forms.ImportDraftsAllQualify | app.js:250-252 | when every row has a name and a compartment, each row adds its own record |
| Forms.ExtendsAdd | app.js:252 | storing the next draft under the generator's key extends the run of imported records by it |
| Forms.ExtendsFilled | app.js:251-252 | adding only filled drafts keeps every stored record filled |
| Forms.ImportRow | app.js:250-253 | one pass of the loop adds and counts row `i` exactly when it qualifies |
| Forms.Import | app.js:245-257 | the import counts the qualifying rows, stores them in order under the next generator keys, leaves the existing records untouched and keeps every record filled |
| Forms.DraftOfExpected | app.js:251-252 | a row exported from a filled record qualifies and yields that record's text |
| Forms.ImportOfRows | app.js:250-252 | the rows of filled records import as those records' texts, one each |
| Forms.ImportOfExport | app.js:239-253 | importing the export of filled `Exportable` records adds one record per exported record, with the same name, compartment and barcode |

The contracts above are stated over these definitions, each a direct
transcription of the code: `Records.Text` (the `|| ''` of a field),
`Html.Entity` (the replacement table of app.js:268), `Strings.Join` (the
`join` of app.js:271 and app.js:273), `CsvWriter.CsvLines`
(the record lines of app.js:271-272), `CsvReader.NonBlankLines` (the line
pipeline of app.js:277), `CsvReader.HeaderName` (one header cell, app.js:279),
`CsvReader.CutAround` and `CsvReader.NamesColumn` (what a header cell's name
is, stated without the code's operations), `Strings.IsTrimOf` (what `trim`
returns, stated the same way), `Search.Matches` and `Search.Keep` (the filter
test of app.js:191-194), `Search.NameLeq` (the sort comparison of app.js:195)
and `Forms.Qualifies` (the row test of app.js:251).

## Left out

- The IndexedDB wrappers (`openDb`, `tx`, `addMed`, `putMed`, `delMed`, `getAllMeds`, `clearAll`): they are promise plumbing over the browser's storage engine. `Store` keeps only the effect `add` and `put` have on the key-to-record map and the key generator. Deletion and clearing are not modelled because no modelled operation uses them.
- The barcode scanner (`startScanner`, `stopScanner`, `finishScan`, `loadScript`): camera access, a native detector, a library loaded over the network and a polling loop, none of which is string logic.
- DOM rendering, event wiring, `alert`, `confirm`, the Blob download of the export and reading the chosen file. `Forms.Import` takes the parsed rows and returns the count the alert shows. `Search.Refresh` returns the list that would be rendered.
- `sw.js`: service-worker caching with no logic of its own.
- Search.LexLeq: `localeCompare` is replaced by the lexicographic order of code points, a total order; locale collation rules are not modelled.
- Strings are sequences of Unicode scalar values, not of UTF-16 code units: a character outside the Basic Multilingual Plane (an emoji, say) is one element here and two in JavaScript, a lone surrogate cannot be represented, and the order `Search.LexLeq` uses is code-point order, which differs from code-unit order for such characters. The other modelled operations either copy characters unchanged, compare them with characters of the Basic Multilingual Plane, or look for one text inside another (`Strings.Includes`, and the header-key equality in `CsvReader.Assign`). On text without lone surrogates, a match of code units always starts on a character boundary, so those results agree with JavaScript's; only this order and the unrepresentable lone surrogates differ.
- Store.Add and Store.Put always succeed. In the browser `addMed` or `putMed` can be rejected (quota, a closed database); such a rejection is not modelled. In `importFile.onchange` it would abort the loop (app.js:250-254): the rows stored before it stay stored, no alert is shown and the file input is not cleared. In `form.onsubmit` it would abort before the form is reset and the list refreshed.
- Strings.Lower: lower-cases ASCII letters only; Unicode case mapping (which can change a string's length) is not modelled.
- Strings.IsWhitespace: covers the ECMAScript whitespace and line-terminator characters of the Basic Multilingual Plane listed in the module; it is not derived from the Unicode database.
- Search.SortByName: the contract states order and permutation but not stability; the engine's sort is stable, and so is the insertion sort in the model, but that is not proved.
- Records.Text: record fields are strings or absent; a non-string field value (which `String(...)`, `replace` or `toLowerCase` would treat differently) is not modelled.
- CsvWriter.CsvLine: keys are printed as plain decimal; JavaScript's exponent form for numbers of 1e21 and above is not modelled.
- Store.Add: the key generator is unbounded; the 2^53 limit of the IndexedDB key generator, after which `add` fails, is not modelled.
- Forms.Submit: the hidden key field is an optional natural number; a non-numeric value in it (which `Number(id)` would turn into `NaN`) is not modelled, since only the edit button writes it.
- CsvReader.Assign: a header named `__proto__` is an ordinary key here; in JavaScript assigning to it on a plain object does not create a key.
- Forms.EditThenSave: it assumes the record has a name and a compartment; the edit button would put the text `undefined` into the form for an absent one.
- Nothing models `Number()` of the parsed `id` column: the import ignores that column and lets the generator choose keys.

=== FILE: csv_reader.dfy ===
/**
 `parseCSV`: the import side of the CSV transcoder. Parsing never fails; rows
 with too few fields get empty values and surplus fields are ignored.
 */
module CsvReader {
  import opened Strings

  /** A parsed data line: one entry per header name. */
  type Row = map<string, string>

  /** Remove one trailing carriage return, the `\r?` of the line-break pattern. */
  function DropCarriageReturn(p: string): (r: string)
    ensures r == p || r + "\r" == p
    ensures (p == [] || p[|p| - 1] != '\r') ==> r == p
    ensures p != [] && p[|p| - 1] == '\r' ==> r + "\r" == p
  {
    if p != [] && p[|p| - 1] == '\r' then p[..|p| - 1] else p
  }

  function DropCarriageReturns(parts: seq<string>): (r: seq<string>)
    ensures |r| == |parts|
    ensures forall i | 0 <= i < |parts| :: r[i] == DropCarriageReturn(parts[i])
  {
    seq(|parts|, i requires 0 <= i < |parts| => DropCarriageReturn(parts[i]))
  }

  /**
   `text.split(/\r?\n/)`: cut at every line feed; a carriage return right
   before a line feed belongs to the break, not to the line.
   */
  function SplitLines(text: string): (lines: seq<string>)
    ensures |lines| == Count(text, '\n') + 1
    ensures forall i | 0 <= i < |lines| :: '\n' !in lines[i]
  {
    LinesOf(Split(text, '\n'))
  }

  /** Lines with no line feed, none but the last ending in a carriage return, survive a join and split. */
  lemma SplitLinesJoin(lines: seq<string>)
    requires |lines| >= 1
    requires forall i | 0 <= i < |lines| :: '\n' !in lines[i]
    requires forall i | 0 <= i < |lines| - 1 :: lines[i] == [] || lines[i][|lines[i]| - 1] != '\r'
    ensures SplitLines(Join(lines, '\n')) == lines
  {
    SplitJoin(lines, '\n');
    assert DropCarriageReturns(lines[..|lines| - 1]) == lines[..|lines| - 1];
  }

  /** The pieces of a split, with every carriage return before a line feed removed. */
  function LinesOf(parts: seq<string>): seq<string>
    requires |parts| >= 1
  {
    DropCarriageReturns(parts[..|parts| - 1]) + [parts[|parts| - 1]]
  }

  lemma DropCarriageReturnsAppend(x: seq<string>, y: seq<string>)
    ensures DropCarriageReturns(x + y) == DropCarriageReturns(x) + DropCarriageReturns(y)
  {
  }

  lemma LinesOfAppend(pa: seq<string>, pt: seq<string>)
    requires |pt| >= 1
    ensures LinesOf(pa + pt) == DropCarriageReturns(pa) + LinesOf(pt)
  {
    var parts := pa + pt;
    assert parts[..|parts| - 1] == pa + pt[..|pt| - 1];
  }

  /** Text before a line feed is split independently of the text after it. */
  lemma SplitLinesAppend(a: string, t: string)
    ensures SplitLines(a + "\n" + t) == DropCarriageReturns(Split(a, '\n')) + SplitLines(t)
  {
    SplitAppend(a, '\n', t);
    LinesOfAppend(Split(a, '\n'), Split(t, '\n'));
  }

  /** `.map(l => l.trim())` */
  function TrimAll(lines: seq<string>): (r: seq<string>)
    ensures |r| == |lines|
    ensures forall i | 0 <= i < |r| :: Trimmed(r[i])
  {
    seq(|lines|, i requires 0 <= i < |lines| => Trim(lines[i]))
  }

  /** `.filter(Boolean)`: the non-empty strings, in order. */
  function DropEmpty(lines: seq<string>): (r: seq<string>)
    ensures |r| <= |lines|
    ensures forall i | 0 <= i < |r| :: r[i] != []
  {
    if lines == [] then []
    else (if lines[0] == [] then [] else [lines[0]]) + DropEmpty(lines[1..])
  }

  /** Filtering only removes: every string kept was in the input. */
  lemma {:induction false} DropEmptyKeepsMembers(lines: seq<string>)
    ensures forall i | 0 <= i < |DropEmpty(lines)| :: DropEmpty(lines)[i] in lines
    decreases |lines|
  {
    if lines != [] {
      DropEmptyKeepsMembers(lines[1..]);
      var rest := DropEmpty(lines[1..]);
      assert forall s | s in rest :: s in lines;
    }
  }

  lemma {:induction false} DropEmptyAppend(x: seq<string>, y: seq<string>)
    ensures DropEmpty(x + y) == DropEmpty(x) + DropEmpty(y)
    decreases |x|
  {
    if x == [] {
      assert x + y == y;
    } else {
      DropEmptyAppend(x[1..], y);
      assert (x + y)[0] == x[0] && (x + y)[1..] == x[1..] + y;
      var head := if x[0] == [] then [] else [x[0]];
      assert DropEmpty(x + y) == head + DropEmpty(x[1..] + y);
      assert DropEmpty(x) == head + DropEmpty(x[1..]);
    }
  }

  /** The trimmed lines that are not blank, in order. */
  function NonBlank(lines: seq<string>): (r: seq<string>)
    ensures |r| <= |lines|
    ensures forall i | 0 <= i < |r| :: r[i] != [] && Trimmed(r[i])
  {
    DropEmptyKeepsMembers(TrimAll(lines));
    DropEmpty(TrimAll(lines))
  }

  lemma NonBlankAppend(x: seq<string>, y: seq<string>)
    ensures NonBlank(x + y) == NonBlank(x) + NonBlank(y)
  {
    TrimAllAppend(x, y);
    DropEmptyAppend(TrimAll(x), TrimAll(y));
  }

  lemma TrimAllAppend(x: seq<string>, y: seq<string>)
    ensures TrimAll(x + y) == TrimAll(x) + TrimAll(y)
  {
  }

  /** Lines that are already non-blank and trimmed pass through unchanged. */
  lemma {:induction false} DropEmptyKeepsNonEmpty(lines: seq<string>)
    requires forall i | 0 <= i < |lines| :: lines[i] != []
    ensures DropEmpty(lines) == lines
    decreases |lines|
  {
    if lines != [] {
      DropEmptyKeepsNonEmpty(lines[1..]);
      assert [lines[0]] + lines[1..] == lines;
    }
  }

  lemma NonBlankKeepsTidyLines(lines: seq<string>)
    requires forall i | 0 <= i < |lines| :: lines[i] != [] && Trimmed(lines[i])
    ensures NonBlank(lines) == lines
  {
    assert TrimAll(lines) == lines;
    DropEmptyKeepsNonEmpty(lines);
  }

  /** The lines `parseCSV` works on: trimmed, blank ones dropped. */
  function NonBlankLines(text: string): seq<string> {
    NonBlank(SplitLines(text))
  }

  /** `.replace(/^"|"$/g, '')`: at most one leading and one trailing double quote removed. */
  function StripOuterQuotes(s: string): (r: string)
    ensures s == r || s == "\"" + r || s == r + "\"" || s == "\"" + r + "\""
    ensures (s == [] || (s[0] != '"' && s[|s| - 1] != '"')) ==> r == s
    ensures |s| >= 2 && s[0] == '"' && s[|s| - 1] == '"' ==> r == s[1..|s| - 1]
    ensures s != [] && s[0] == '"' && (|s| == 1 || s[|s| - 1] != '"') ==> s == "\"" + r
    ensures s != [] && s[0] != '"' && s[|s| - 1] == '"' ==> s == r + "\""
  {
    var a := if s != [] && s[0] == '"' then s[1..] else s;
    if a != [] && a[|a| - 1] == '"' then a[..|a| - 1] else a
  }

  /** What may precede a cleaned value in its field: whitespace, optionally after one `"`. */
  predicate OpeningPad(p: string) {
    AllWhitespace(p) || (p != [] && p[0] == '"' && AllWhitespace(p[1..]))
  }

  /** What may follow a cleaned value in its field: whitespace, optionally before one `"`. */
  predicate ClosingPad(q: string) {
    AllWhitespace(q) || (q != [] && q[|q| - 1] == '"' && AllWhitespace(q[..|q| - 1]))
  }

  /**
   Cleaning a field (`.replace(/^"|"$/g, '').trim()`) removes at most one
   `"` and the whitespace inside it from each end and nothing else; a quote
   at either end is always among what is removed.
   */
  lemma CleanParts(raw: string) returns (p: string, q: string)
    ensures raw == p + Trim(StripOuterQuotes(raw)) + q
    ensures OpeningPad(p) && ClosingPad(q)
    ensures raw != [] && raw[0] == '"' ==> p != [] && p[0] == '"'
    ensures |raw| >= 2 && raw[|raw| - 1] == '"' ==> q != [] && q[|q| - 1] == '"'
  {
    var a := if raw != [] && raw[0] == '"' then raw[1..] else raw;
    var qa := if raw != [] && raw[0] == '"' then "\"" else [];
    var qb := if a != [] && a[|a| - 1] == '"' then "\"" else [];
    var stripped := StripOuterQuotes(raw);
    assert raw == qa + a && a == stripped + qb;
    assert |raw| >= 2 && raw[|raw| - 1] == '"' ==> qb != [] by {
      if |raw| >= 2 && raw[|raw| - 1] == '"' {
        assert a[|a| - 1] == raw[|raw| - 1];
      }
    }
    var w1, w2 := TrimParts(stripped);
    p, q := PadsAround(raw, qa, a, stripped, qb, w1, Trim(stripped), w2);
  }

  /** Gluing an optional quote onto whitespace padding on both sides. */
  lemma PadsAround(raw: string, qa: string, a: string, stripped: string, qb: string, w1: string, v: string, w2: string)
    returns (p: string, q: string)
    requires qa == [] || qa == "\""
    requires qb == [] || qb == "\""
    requires raw == qa + a && a == stripped + qb && stripped == w1 + v + w2
    requires AllWhitespace(w1) && AllWhitespace(w2)
    ensures p == qa + w1 && q == w2 + qb
    ensures raw == p + v + q
    ensures OpeningPad(p) && ClosingPad(q)
    ensures qa != [] ==> p != [] && p[0] == '"'
    ensures qb != [] ==> q != [] && q[|q| - 1] == '"'
  {
    p, q := qa + w1, w2 + qb;
    if qa != [] {
      assert p[1..] == w1;
    } else {
      assert p == w1;
    }
    if qb != [] {
      assert q[..|q| - 1] == w2;
    } else {
      assert q == w2;
    }
  }

  /** One header cell: quotes stripped, trimmed, lower-cased. */
  function HeaderName(cell: string): string {
    Lower(Trim(StripOuterQuotes(cell)))
  }

  /**
   `cell` is `v` with an opening pad `p` before it and a closing pad `q` after
   it, `v` is trimmed, and a quote at either end of `cell` lies in its pad.
   */
  ghost predicate CutAround(cell: string, p: string, v: string, q: string) {
    && cell == p + v + q && OpeningPad(p) && ClosingPad(q) && Trimmed(v)
    && (cell != [] && cell[0] == '"' ==> p != [] && p[0] == '"')
    && (|cell| >= 2 && cell[|cell| - 1] == '"' ==> q != [] && q[|q| - 1] == '"')
  }

  /** `name` is what is left of `cell` once its pads are cut, lower-cased. */
  ghost predicate NamesColumn(name: string, cell: string) {
    exists p: string, v: string, q: string :: CutAround(cell, p, v, q) && name == Lower(v)
  }

  /** The header line, split naively on every comma; quotes do not protect a comma here. */
  function HeaderNames(line: string): (names: seq<string>)
    ensures |names| == Count(line, ',') + 1 == |Split(line, ',')|
    ensures forall i | 0 <= i < |names| :: NamesColumn(names[i], Split(line, ',')[i])
    ensures forall i | 0 <= i < |names| :: forall j | 0 <= j < |names[i]| :: !('A' <= names[i][j] <= 'Z')
    ensures forall i | 0 <= i < |names| :: Trimmed(names[i])
  {
    var cells := Split(line, ',');
    var names := seq(|cells|, i requires 0 <= i < |cells| => HeaderName(cells[i]));
    forall i | 0 <= i < |names| ensures Trimmed(names[i]) && NamesColumn(names[i], cells[i]) {
      LowerKeepsTrimmed(Trim(StripOuterQuotes(cells[i])));
      HeaderNameNamesColumn(cells[i]);
    }
    names
  }

  /**
   Every header cell, upper-case letters or not, names its column by what is
   left once an opening and a closing pad are cut, lower-cased.
   */
  lemma HeaderNameParts(cell: string) returns (p: string, v: string, q: string)
    ensures CutAround(cell, p, v, q)
    ensures HeaderName(cell) == Lower(v)
  {
    p, q := CleanParts(cell);
    v := Trim(StripOuterQuotes(cell));
  }

  lemma HeaderNameNamesColumn(cell: string)
    ensures NamesColumn(HeaderName(cell), cell)
  {
    var p, v, q := HeaderNameParts(cell);
  }

  /** Column `i` of a header line is named by cell `i`, cut of its pads and lower-cased. */
  lemma HeaderNamesOfCells(line: string, i: nat) returns (p: string, v: string, q: string)
    requires i < |Split(line, ',')|
    ensures |HeaderNames(line)| == |Split(line, ',')|
    ensures CutAround(Split(line, ',')[i], p, v, q)
    ensures HeaderNames(line)[i] == Lower(v)
  {
    p, v, q := HeaderNameParts(Split(line, ',')[i]);
  }

  /**
   A header cell without upper-case letters names the cell with its outer
   quotes stripped and its surrounding whitespace trimmed.
   */
  lemma HeaderNameOfLowerCell(cell: string)
    requires forall j | 0 <= j < |cell| :: !('A' <= cell[j] <= 'Z')
    ensures HeaderName(cell) == Trim(StripOuterQuotes(cell))
  {
    var p, q := CleanParts(cell);
    NoUpperWithin(cell, p, Trim(StripOuterQuotes(cell)), q);
  }

  /** A piece of a string without upper-case letters has none either. */
  lemma NoUpperWithin(s: string, p: string, v: string, q: string)
    requires s == p + v + q
    requires forall j | 0 <= j < |s| :: !('A' <= s[j] <= 'Z')
    ensures forall j | 0 <= j < |v| :: !('A' <= v[j] <= 'Z')
  {
    forall j | 0 <= j < |v| ensures !('A' <= v[j] <= 'Z') {
      assert v[j] == s[|p| + j];
    }
  }

  /**
   The field scanner of one data line. `quoted` is the quote toggle, `cur` the
   field being built, `fields` the fields already finished. A doubled quote is
   looked at before the toggle, so it always yields one literal quote, quoted
   section or not; a comma ends a field only outside a quoted section; at the
   end of the line the last field is kept only if it is not empty.
   */
  function ScanFrom(rest: string, quoted: bool, cur: string, fields: seq<string>): (r: seq<string>)
    ensures |fields| <= |r| <= |fields| + Count(rest, ',') + 1
    ensures r[..|fields|] == fields
    decreases |rest|
  {
    if rest == [] then
      (if cur != [] then fields + [cur] else fields)
    else if rest[0] == '"' && |rest| > 1 && rest[1] == '"' then
      ScanFrom(rest[2..], quoted, cur + "\"", fields)
    else if rest[0] == '"' then
      ScanFrom(rest[1..], !quoted, cur, fields)
    else if rest[0] == ',' && !quoted then
      var r := ScanFrom(rest[1..], quoted, [], fields + [cur]);
      assert r[..|fields|] == r[..|fields| + 1][..|fields|];
      r
    else
      ScanFrom(rest[1..], quoted, cur + [rest[0]], fields)
  }

  /** The fields of one data line. */
  function ScanFields(line: string): (fields: seq<string>)
    ensures |fields| <= Count(line, ',') + 1
  {
    ScanFrom(line, false, [], [])
  }

  /** Text with no quote (and, outside a quoted section, no comma) is copied into the current field. */
  lemma {:induction false} ScanPlain(p: string, rest: string, quoted: bool, cur: string, fields: seq<string>)
    requires '"' !in p
    requires quoted || ',' !in p
    ensures ScanFrom(p + rest, quoted, cur, fields) == ScanFrom(rest, quoted, cur + p, fields)
    decreases |p|
  {
    if p == [] {
      assert p + rest == rest && cur + p == cur;
    } else {
      assert (p + rest)[0] == p[0] && (p + rest)[1..] == p[1..] + rest;
      ScanPlain(p[1..], rest, quoted, cur + [p[0]], fields);
      assert cur + [p[0]] + p[1..] == cur + p;
    }
  }

  /**
   An unmatched opening quote does not fail the scan: the rest of the line,
   commas included, becomes the last field.
   */
  lemma UnmatchedQuoteTakesRest(before: string, rest: string, fields: seq<string>)
    requires '"' !in rest
    requires rest == [] || rest[0] != '"'
    ensures ScanFrom("\"" + rest, false, before, fields)
         == if before + rest == [] then fields else fields + [before + rest]
  {
    var t := "\"" + rest;
    assert t[1..] == rest;
    ScanPlain(rest, [], true, before, fields);
    assert rest + [] == rest;
  }

  /** Drop the last piece when it is empty: the scanner does not push an empty final field. */
  function DropEmptyLast(pieces: seq<string>): seq<string> {
    if pieces != [] && pieces[|pieces| - 1] == [] then pieces[..|pieces| - 1] else pieces
  }

  /** `cur` glued onto the front of the first piece. */
  function GlueFront(cur: string, pieces: seq<string>): seq<string>
    requires |pieces| >= 1
  {
    [cur + pieces[0]] + pieces[1..]
  }

  lemma DropEmptyLastCons(x: string, tail: seq<string>)
    requires |tail| >= 1
    ensures DropEmptyLast([x] + tail) == [x] + DropEmptyLast(tail)
  {
    var l := [x] + tail;
    assert l[|l| - 1] == tail[|tail| - 1];
    assert l[..|l| - 1] == [x] + tail[..|tail| - 1];
  }

  lemma GlueFrontEmpty(pieces: seq<string>)
    requires |pieces| >= 1
    ensures GlueFront([], pieces) == pieces
  {
    assert [] + pieces[0] == pieces[0];
    assert [pieces[0]] + pieces[1..] == pieces;
  }

  lemma GlueFrontOntoEmpty(cur: string, tail: seq<string>)
    ensures GlueFront(cur, [[]] + tail) == [cur] + tail
  {
    var l := [[]] + tail;
    assert l[0] == [] && l[1..] == tail;
    assert cur + [] == cur;
  }

  lemma GlueFrontTwice(cur: string, c: char, tail: seq<string>)
    requires |tail| >= 1
    ensures GlueFront(cur, GlueFront([c], tail)) == GlueFront(cur + [c], tail)
  {
    assert cur + ([c] + tail[0]) == cur + [c] + tail[0];
  }

  lemma {:induction false} ScanUnquotedIsSplit(line: string, cur: string, fields: seq<string>)
    requires '"' !in line
    ensures ScanFrom(line, false, cur, fields) == fields + DropEmptyLast(GlueFront(cur, Split(line, ',')))
    decreases |line|
  {
    if line == [] {
      var none: seq<string> := [];
      GlueFrontOntoEmpty(cur, none);
      assert [[]] + none == [[]] && [cur] + none == [cur];
    } else {
      var tail := Split(line[1..], ',');
      assert '"' !in line[1..] by {
        assert forall c | c in line[1..] :: c in line;
      }
      if line[0] == ',' {
        assert Split(line, ',') == [[]] + tail;
        assert ScanFrom(line, false, cur, fields) == ScanFrom(line[1..], false, [], fields + [cur]);
        ScanUnquotedIsSplit(line[1..], [], fields + [cur]);
        CommaStep(cur, tail, fields);
      } else {
        assert Split(line, ',') == GlueFront([line[0]], tail);
        assert ScanFrom(line, false, cur, fields) == ScanFrom(line[1..], false, cur + [line[0]], fields);
        ScanUnquotedIsSplit(line[1..], cur + [line[0]], fields);
        GlueFrontTwice(cur, line[0], tail);
      }
    }
  }

  /** A comma ends the current field: the pieces after it start a fresh one. */
  lemma CommaStep(cur: string, tail: seq<string>, fields: seq<string>)
    requires |tail| >= 1
    ensures fields + DropEmptyLast(GlueFront(cur, [[]] + tail)) == (fields + [cur]) + DropEmptyLast(GlueFront([], tail))
  {
    GlueFrontEmpty(tail);
    GlueFrontOntoEmpty(cur, tail);
    DropEmptyLastCons(cur, tail);
  }

  /**
   On a line without quotes the scanner agrees with a plain split on commas,
   except that an empty last field is not kept.
   */
  lemma ScanFieldsUnquoted(line: string)
    requires '"' !in line
    ensures ScanFields(line) == DropEmptyLast(Split(line, ','))
  {
    ScanUnquotedIsSplit(line, [], []);
    GlueFrontEmpty(Split(line, ','));
    assert [] + DropEmptyLast(Split(line, ',')) == DropEmptyLast(Split(line, ','));
  }

  /**
   The value of column `k` is its field less padding: at most one `"` and
   whitespace at each end, a quote at either end always being dropped.
   */
  lemma FieldValueParts(fields: seq<string>, k: nat) returns (p: string, q: string)
    requires k < |fields|
    ensures fields[k] == p + FieldValue(fields, k) + q
    ensures OpeningPad(p) && ClosingPad(q)
    ensures fields[k] != [] && fields[k][0] == '"' ==> p != [] && p[0] == '"'
    ensures |fields[k]| >= 2 && fields[k][|fields[k]| - 1] == '"' ==> q != [] && q[|q| - 1] == '"'
  {
    p, q := CleanParts(fields[k]);
  }

  /** The value stored for column `k`: a missing field is `''`; quotes stripped once, then trimmed. */
  function FieldValue(fields: seq<string>, k: nat): (v: string)
    ensures Trimmed(v)
    ensures k >= |fields| ==> v == []
    ensures k < |fields| ==> IsInfix(v, fields[k])
  {
    var raw := if k < |fields| then fields[k] else [];
    var stripped := StripOuterQuotes(raw);
    var v := Trim(stripped);
    InfixTransitive(v, stripped, raw);
    v
  }

  lemma InfixTransitive(a: string, b: string, c: string)
    requires IsInfix(a, b)
    requires c == b || c == "\"" + b || c == b + "\"" || c == "\"" + b + "\""
    ensures IsInfix(a, c)
  {
    var i: nat :| InfixAt(a, b, i);
    if c == b || c == b + "\"" {
      assert c[i..i + |a|] == b[i..i + |a|];
      assert InfixAt(a, c, i);
    } else {
      assert c[i + 1..i + 1 + |a|] == b[i..i + |a|];
      assert InfixAt(a, c, i + 1);
    }
  }

  /** Column `k` is the last one carrying its header name. */
  predicate LastColumn(headers: seq<string>, k: nat)
    requires k < |headers|
  {
    forall j | k < j < |headers| :: headers[j] != headers[k]
  }

  /**
   `obj[headers[k]] = values[k]` for each column from left to right: a key per
   header name, holding the value of the last column that carries it.
   */
  function Assign(headers: seq<string>, values: seq<string>): (row: Row)
    requires |values| == |headers|
    ensures forall h :: h in row <==> h in headers
    ensures forall k | 0 <= k < |headers| && LastColumn(headers, k) :: row[headers[k]] == values[k]
    decreases |headers|
  {
    if headers == [] then map[]
    else
      var n := |headers| - 1;
      var prev := Assign(headers[..n], values[..n]);
      AssignStep(headers, values, prev);
      prev[headers[n] := values[n]]
  }

  /** The last assignment keeps what the earlier columns established. */
  lemma AssignStep(headers: seq<string>, values: seq<string>, prev: Row)
    requires |headers| >= 1 && |values| == |headers|
    requires forall h :: h in prev <==> h in headers[..|headers| - 1]
    requires forall k | 0 <= k < |headers| - 1 && LastColumn(headers[..|headers| - 1], k) :: prev[headers[k]] == values[k]
    ensures var row := prev[headers[|headers| - 1] := values[|headers| - 1]];
      && (forall h :: h in row <==> h in headers)
      && (forall k | 0 <= k < |headers| && LastColumn(headers, k) :: row[headers[k]] == values[k])
  {
    var n := |headers| - 1;
    var prefix := headers[..n];
    var row := prev[headers[n] := values[n]];
    forall h ensures h in row <==> h in headers {
      if h in headers {
        var j :| 0 <= j < |headers| && headers[j] == h;
        if j < n { assert prefix[j] == h; }
      }
      if h in prefix {
        var j :| 0 <= j < n && prefix[j] == h;
        assert headers[j] == h;
      }
    }
    forall k | 0 <= k < |headers| && LastColumn(headers, k)
      ensures row[headers[k]] == values[k]
    {
      if k < n {
        assert LastColumn(prefix, k) && headers[k] != headers[n];
      }
    }
  }

  /** The value of every column of a data line, `''` past its last field. */
  function ColumnValues(headers: seq<string>, fields: seq<string>): (values: seq<string>)
    ensures |values| == |headers|
    ensures forall k | 0 <= k < |values| :: values[k] == FieldValue(fields, k)
    ensures forall k | 0 <= k < |values| :: Trimmed(values[k])
    ensures forall k | |fields| <= k < |values| :: values[k] == []
    ensures forall k | 0 <= k < |values| && k < |fields| :: IsInfix(values[k], fields[k])
  {
    seq(|headers|, k requires 0 <= k < |headers| => FieldValue(fields, k))
  }

  /**
   What the object for one data line holds: a key per header name, the value
   of the last column carrying it, every value trimmed.
   */
  ghost predicate RowOf(headers: seq<string>, fields: seq<string>, row: Row) {
    && (forall h :: h in row <==> h in headers)
    && (forall k {:trigger FieldValue(fields, k)} | 0 <= k < |headers| && LastColumn(headers, k) :: row[headers[k]] == FieldValue(fields, k))
    && (forall h | h in row :: Trimmed(row[h]))
  }

  /** The object `parseCSV` builds for one data line. */
  function MakeRow(headers: seq<string>, fields: seq<string>): (row: Row)
    ensures RowOf(headers, fields, row)
  {
    var values := ColumnValues(headers, fields);
    var row := Assign(headers, values);
    assert forall h | h in row :: Trimmed(row[h]) by {
      forall h | h in row ensures Trimmed(row[h]) {
        var k := LastIndex(headers, h);
        assert row[headers[k]] == values[k];
      }
    }
    row
  }

  /** The last column carrying header name `h`. */
  function LastIndex(headers: seq<string>, h: string): (k: nat)
    requires h in headers
    ensures k < |headers| && headers[k] == h && LastColumn(headers, k)
  {
    if headers[|headers| - 1] == h then |headers| - 1
    else
      assert h in headers[..|headers| - 1] by {
        var j :| 0 <= j < |headers| && headers[j] == h;
        assert headers[..|headers| - 1][j] == h;
      }
      LastIndex(headers[..|headers| - 1], h)
  }

  /** One row per data line, built against the header names. */
  function MakeRows(headers: seq<string>, data: seq<string>): (rows: seq<Row>)
    ensures |rows| == |data|
    ensures forall i | 0 <= i < |rows| :: RowOf(headers, ScanFields(data[i]), rows[i])
  {
    seq(|data|, i requires 0 <= i < |data| => MakeRow(headers, ScanFields(data[i])))
  }

  /**
   The rows of a file whose non-blank lines are `lines`: the first names the
   columns and every later line gives one row, in order.
   */
  function ParseLines(lines: seq<string>): (rows: seq<Row>)
    ensures |rows| == if lines == [] then 0 else |lines| - 1
    ensures forall i | 0 <= i < |rows| :: RowOf(HeaderNames(lines[0]), ScanFields(lines[i + 1]), rows[i])
  {
    if lines == [] then []
    else
      var data := lines[1..];
      assert forall i | 0 <= i < |data| :: data[i] == lines[i + 1];
      MakeRows(HeaderNames(lines[0]), data)
  }

  /** `parseCSV`: parsing never fails; it only ever drops blank lines. */
  function ParseCsv(text: string): (rows: seq<Row>)
    ensures var lines := NonBlankLines(text);
      && |rows| == (if lines == [] then 0 else |lines| - 1)
      && forall i | 0 <= i < |rows| :: RowOf(HeaderNames(lines[0]), ScanFields(lines[i + 1]), rows[i])
  {
    ParseLines(NonBlankLines(text))
  }

  /** Trimming a line never depends on a carriage return at its end. */
  lemma NonBlankDropCarriageReturns(lines: seq<string>)
    ensures NonBlank(DropCarriageReturns(lines)) == NonBlank(lines)
  {
    var d := DropCarriageReturns(lines);
    forall i | 0 <= i < |lines| ensures Trim(d[i]) == Trim(lines[i]) {
      if d[i] != lines[i] {
        TrimAppendWhitespace(d[i], '\r');
      }
    }
    assert TrimAll(d) == TrimAll(lines);
  }

  /** A whitespace-only line contributes nothing. */
  lemma NonBlankOfBlank(w: string)
    requires AllWhitespace(w)
    ensures NonBlank([w]) == []
    ensures NonBlank([DropCarriageReturn(w)]) == []
  {
    assert TrimAll([w]) == [[]];
    var d := DropCarriageReturn(w);
    assert AllWhitespace(d) by {
      assert d == w[..|d|];
      forall i | 0 <= i < |d| ensures IsWhitespace(d[i]) { assert d[i] == w[i]; }
    }
    assert TrimAll([d]) == [[]];
  }

  /** A whitespace-only line between two lines is ignored. */
  lemma BlankLineBetween(a: string, w: string, b: string)
    requires '\n' !in w && AllWhitespace(w)
    ensures ParseCsv(a + "\n" + w + "\n" + b) == ParseCsv(a + "\n" + b)
  {
    var tail := w + "\n" + b;
    assert a + "\n" + w + "\n" + b == a + "\n" + tail;
    var pa := DropCarriageReturns(Split(a, '\n'));
    var lb := SplitLines(b);
    var d := DropCarriageReturn(w);
    assert SplitLines(tail) == [d] + lb by {
      SplitLinesAppend(w, b);
      SplitNoSeparator(w, '\n');
      assert DropCarriageReturns([w]) == [d];
    }
    assert NonBlank(SplitLines(tail)) == NonBlank(lb) by {
      NonBlankOfBlank(w);
      NonBlankAppend([d], lb);
    }
    assert NonBlankLines(a + "\n" + tail) == NonBlank(pa) + NonBlank(lb) by {
      SplitLinesAppend(a, tail);
      NonBlankAppend(pa, SplitLines(tail));
    }
    assert NonBlankLines(a + "\n" + b) == NonBlank(pa) + NonBlank(lb) by {
      SplitLinesAppend(a, b);
      NonBlankAppend(pa, lb);
    }
  }

  /** A whitespace-only line before the first line is ignored. */
  lemma BlankLineFirst(w: string, b: string)
    requires '\n' !in w && AllWhitespace(w)
    ensures ParseCsv(w + "\n" + b) == ParseCsv(b)
  {
    var lb := SplitLines(b);
    var d := DropCarriageReturn(w);
    SplitLinesAppend(w, b);
    SplitNoSeparator(w, '\n');
    assert DropCarriageReturns([w]) == [d];
    NonBlankOfBlank(w);
    NonBlankAppend([d], lb);
    assert NonBlankLines(w + "\n" + b) == NonBlankLines(b);
  }

  /** A whitespace-only line after the last line is ignored. */
  lemma BlankLineLast(a: string, w: string)
    requires '\n' !in w && AllWhitespace(w)
    ensures ParseCsv(a + "\n" + w) == ParseCsv(a)
  {
    var parts := Split(a, '\n');
    var n := |parts| - 1;
    var init := DropCarriageReturns(parts[..n]);
    var last := parts[n];
    assert DropCarriageReturns(parts) == init + DropCarriageReturns([last]) by {
      assert parts == parts[..n] + [last];
      DropCarriageReturnsAppend(parts[..n], [last]);
    }
    assert NonBlankLines(a + "\n" + w) == NonBlank(init) + NonBlank([last]) by {
      SplitLinesAppend(a, w);
      SplitNoSeparator(w, '\n');
      assert SplitLines(w) == [w];
      NonBlankOfBlank(w);
      NonBlankAppend(DropCarriageReturns(parts), [w]);
      NonBlankAppend(init, DropCarriageReturns([last]));
      NonBlankDropCarriageReturns([last]);
    }
    assert NonBlankLines(a) == NonBlank(init) + NonBlank([last]) by {
      assert SplitLines(a) == init + [last];
      NonBlankAppend(init, [last]);
    }
  }
}

=== FILE: csv_roundtrip.dfy ===
/**
 What an export followed by an import gives back. The scanner reads every
 quoted field whose text does not start with `"` back exactly (an empty field
 reads back as one `"`), but the import then strips one outer quote and trims
 each value, so the round trip holds only for "tidy" text fields.
 */
module CsvRoundTrip {
  import opened Strings
  import opened Records
  import opened CsvWriter
  import opened CsvReader

  /**
   A text field the round trip preserves: no line feed, no surrounding
   whitespace, and it neither starts nor ends with a double quote.
   */
  predicate Tidy(s: string) {
    && '\n' !in s
    && Trimmed(s)
    && (s == [] || (s[0] != '"' && s[|s| - 1] != '"'))
  }

  /** Every text field of the record is tidy. */
  predicate Exportable(m: Med) {
    Tidy(Text(m.name)) && Tidy(Text(m.compartment)) && Tidy(Text(m.barcode))
  }

  /** The object an import should give for record `m`: the key as decimal text, the text fields as they are. */
  function ExpectedRow(m: Med): Row {
    map["id" := DecimalText(m.id), "name" := Text(m.name),
        "compartment" := Text(m.compartment), "barcode" := Text(m.barcode)]
  }

  /** What the scanner reads back for a quoted field: an empty field reads as one quote. */
  function ScannedText(s: string): string {
    if s == [] then "\"" else s
  }

  /** Inside a quoted section, a doubled text is read back as the text itself. */
  lemma {:induction false} ScanDoubled(s: string, rest: string, cur: string, fields: seq<string>)
    ensures ScanFrom(DoubleQuotes(s) + rest, true, cur, fields) == ScanFrom(rest, true, cur + s, fields)
    decreases |s|
  {
    if s == [] {
      assert DoubleQuotes(s) + rest == rest && cur + s == cur;
    } else {
      var more := DoubleQuotes(s[1..]) + rest;
      DoubledThen(s, rest);
      ScanDoubledChar(s[0], more, cur, fields);
      ScanDoubled(s[1..], rest, cur + [s[0]], fields);
      ConsThen(cur, s);
    }
  }

  lemma DoubledThen(s: string, rest: string)
    requires s != []
    ensures DoubleQuotes(s) + rest == Doubled(s[0]) + (DoubleQuotes(s[1..]) + rest)
  {
  }

  lemma ConsThen(cur: string, s: string)
    requires s != []
    ensures cur + [s[0]] + s[1..] == cur + s
  {
    assert [s[0]] + s[1..] == s;
  }

  /** Inside a quoted section one character as written by `DoubleQuotes` is read back as itself. */
  lemma ScanDoubledChar(c: char, more: string, cur: string, fields: seq<string>)
    ensures ScanFrom(Doubled(c) + more, true, cur, fields) == ScanFrom(more, true, cur + [c], fields)
  {
    if c == '"' {
      ScanQuotePair(more, cur, fields);
    } else {
      ScanOrdinary(c, more, cur, fields);
    }
  }

  /** Inside a quoted section a doubled quote stands for one quote. */
  lemma ScanQuotePair(more: string, cur: string, fields: seq<string>)
    ensures ScanFrom("\"\"" + more, true, cur, fields) == ScanFrom(more, true, cur + ['"'], fields)
  {
    var t := "\"\"" + more;
    assert t[0] == '"' && t[1] == '"' && t[2..] == more;
  }

  /** Inside a quoted section any other character is copied. */
  lemma ScanOrdinary(c: char, more: string, cur: string, fields: seq<string>)
    requires c != '"'
    ensures ScanFrom([c] + more, true, cur, fields) == ScanFrom(more, true, cur + [c], fields)
  {
    var t := [c] + more;
    assert t[0] == c && t[1..] == more;
  }

  /**
   A quoted field whose text does not start with a quote, followed by
   anything but a quote, is read back as its text (one quote when empty),
   with commas in it kept.
   */
  lemma ScanQuoted(s: string, rest: string, cur: string, fields: seq<string>)
    requires s == [] || s[0] != '"'
    requires rest == [] || rest[0] != '"'
    ensures ScanFrom(Quote(s) + rest, false, cur, fields) == ScanFrom(rest, false, cur + ScannedText(s), fields)
  {
    var t := Quote(s) + rest;
    if s == [] {
      assert t == "\"\"" + rest;
      assert t[0] == '"' && t[1] == '"' && t[2..] == rest;
    } else {
      var closing := "\"" + rest;
      assert t == "\"" + (DoubleQuotes(s) + closing);
      assert t[0] == '"' && t[1] == s[0] && t[1..] == DoubleQuotes(s) + closing;
      ScanDoubled(s, closing, cur, fields);
      assert closing[0] == '"' && closing[1..] == rest;
      assert |closing| > 1 ==> closing[1] != '"';
    }
  }

  lemma ScanComma(rest: string, cur: string, fields: seq<string>)
    ensures ScanFrom("," + rest, false, cur, fields) == ScanFrom(rest, false, [], fields + [cur])
  {
    assert ("," + rest)[0] == ',' && ("," + rest)[1..] == rest;
  }

  /** A quoted field and the comma after it end one field and start the next. */
  lemma ScanQuotedField(s: string, rest: string, fields: seq<string>)
    requires s == [] || s[0] != '"'
    ensures ScanFrom(Quote(s) + ("," + rest), false, [], fields) == ScanFrom(rest, false, [], fields + [ScannedText(s)])
  {
    ScanQuoted(s, "," + rest, [], fields);
    assert [] + ScannedText(s) == ScannedText(s);
    ScanComma(rest, ScannedText(s), fields);
  }

  /** The decimal text of a key holds neither a quote nor a comma. */
  lemma DecimalTextPlain(n: nat)
    ensures '"' !in DecimalText(n) && ',' !in DecimalText(n)
    ensures Trimmed(DecimalText(n))
  {
    var d := DecimalText(n);
    assert forall i | 0 <= i < |d| :: d[i] != '"' && d[i] != ',';
  }

  /** The layout of an exported line, with the concatenations grouped from the right. */
  function LineOf(id: string, n: string, c: string, b: string): string {
    id + ("," + (Quote(n) + ("," + (Quote(c) + ("," + Quote(b))))))
  }

  lemma ScanLineOf(id: string, n: string, c: string, b: string)
    requires '"' !in id && ',' !in id
    requires n == [] || n[0] != '"'
    requires c == [] || c[0] != '"'
    requires b == [] || b[0] != '"'
    ensures ScanFrom(LineOf(id, n, c, b), false, [], []) == [id, ScannedText(n), ScannedText(c), ScannedText(b)]
  {
    var r4 := Quote(c) + ("," + Quote(b));
    var r2 := Quote(n) + ("," + r4);
    ScanKey(id, r2);
    ScanQuotedField(n, r4, [id]);
    ScanQuotedField(c, Quote(b), [id] + [ScannedText(n)]);
    ScanLastQuoted(b, [id] + [ScannedText(n)] + [ScannedText(c)]);
    FourFields(id, ScannedText(n), ScannedText(c), ScannedText(b));
  }

  lemma FourFields(a: string, b: string, c: string, d: string)
    ensures [a] + [b] + [c] + [d] == [a, b, c, d]
  {
  }

  /** The unquoted key and the comma after it make the first field. */
  lemma ScanKey(id: string, rest: string)
    requires '"' !in id && ',' !in id
    ensures ScanFrom(id + ("," + rest), false, [], []) == ScanFrom(rest, false, [], [id])
  {
    ScanPlain(id, "," + rest, false, [], []);
    assert [] + id == id;
    ScanComma(rest, id, []);
    assert [] + [id] == [id];
  }

  /** A quoted field at the end of the line is the last field. */
  lemma ScanLastQuoted(s: string, fields: seq<string>)
    requires s == [] || s[0] != '"'
    ensures ScanFrom(Quote(s), false, [], fields) == fields + [ScannedText(s)]
  {
    ScanQuoted(s, [], [], fields);
    assert Quote(s) + [] == Quote(s);
    assert [] + ScannedText(s) == ScannedText(s);
  }

  /**
   The scanner splits an exported line into the key and the three text
   fields, commas and doubled quotes inside the text fields included.
   */
  lemma ScanCsvLine(m: Med)
    requires Exportable(m)
    ensures ScanFields(CsvLine(m))
         == [DecimalText(m.id), ScannedText(Text(m.name)), ScannedText(Text(m.compartment)), ScannedText(Text(m.barcode))]
  {
    var id := DecimalText(m.id);
    var n, c, b := Text(m.name), Text(m.compartment), Text(m.barcode);
    Regroup(id, ",", Quote(n), ",", Quote(c), ",", Quote(b));
    DecimalTextPlain(m.id);
    ScanLineOf(id, n, c, b);
  }

  lemma Regroup(a: string, b: string, c: string, d: string, e: string, f: string, g: string)
    ensures a + b + c + d + e + f + g == a + (b + (c + (d + (e + (f + g)))))
  {
  }

  /** Stripping and trimming a read-back tidy field gives the field. */
  lemma FieldValueOfTidy(s: string)
    requires Tidy(s)
    ensures Trim(StripOuterQuotes(ScannedText(s))) == s
  {
    if s == [] {
      assert StripOuterQuotes("\"") == [];
    }
  }

  /** A cell of lower-case ASCII letters has nothing to strip or trim. */
  lemma CleanWord(h: string)
    requires IsLowerWord(h)
    ensures Trim(StripOuterQuotes(h)) == h
  {
    assert !IsWhitespace(h[0]) && !IsWhitespace(h[|h| - 1]);
  }

  predicate IsLowerWord(h: string) {
    h != [] && forall j | 0 <= j < |h| :: 'a' <= h[j] <= 'z'
  }

  lemma SplitFour(a: string, b: string, c: string, d: string)
    requires ',' !in a && ',' !in b && ',' !in c && ',' !in d
    ensures Split(a + [','] + (b + [','] + (c + [','] + d)), ',') == [a, b, c, d]
  {
    SplitNoSeparator(d, ',');
    SplitAppend(c, ',', d);
    SplitNoSeparator(c, ',');
    SplitAppend(b, ',', c + [','] + d);
    SplitNoSeparator(b, ',');
    SplitAppend(a, ',', b + [','] + (c + [','] + d));
    SplitNoSeparator(a, ',');
  }

  /**
   A header line whose cells have no upper-case letters names each column by
   its cell with outer quotes stripped and surrounding whitespace trimmed.
   */
  lemma HeaderNamesOfLowerCells(line: string, cells: seq<string>)
    requires Split(line, ',') == cells
    requires forall i | 0 <= i < |cells| :: forall j | 0 <= j < |cells[i]| :: !('A' <= cells[i][j] <= 'Z')
    ensures |HeaderNames(line)| == |cells|
    ensures forall i | 0 <= i < |cells| :: HeaderNames(line)[i] == Trim(StripOuterQuotes(cells[i]))
  {
    var names := HeaderNames(line);
    forall i | 0 <= i < |cells| ensures names[i] == Trim(StripOuterQuotes(cells[i])) {
      HeaderNameOfLowerCell(cells[i]);
    }
  }

  /** A header line whose cells are lower-case words names exactly those words. */
  lemma HeaderNamesOfWordCells(line: string, cells: seq<string>)
    requires Split(line, ',') == cells
    requires forall i | 0 <= i < |cells| :: IsLowerWord(cells[i])
    ensures HeaderNames(line) == cells
  {
    HeaderNamesOfLowerCells(line, cells);
    var names := HeaderNames(line);
    forall i | 0 <= i < |cells| ensures names[i] == cells[i] {
      CleanWord(cells[i]);
    }
  }

  /** Four lower-case words joined by commas name four columns. */
  lemma HeaderNamesOfWords(a: string, b: string, c: string, d: string)
    requires IsLowerWord(a) && IsLowerWord(b) && IsLowerWord(c) && IsLowerWord(d)
    ensures HeaderNames(a + [','] + (b + [','] + (c + [','] + d))) == [a, b, c, d]
  {
    assert ',' !in a && ',' !in b && ',' !in c && ',' !in d;
    SplitFour(a, b, c, d);
    HeaderNamesOfWordCells(a + [','] + (b + [','] + (c + [','] + d)), [a, b, c, d]);
  }

  lemma HeaderWords()
    ensures IsLowerWord("id") && IsLowerWord("name") && IsLowerWord("compartment") && IsLowerWord("barcode")
  {
  }

  /** The header line names the four columns, in order. */
  lemma HeaderColumns()
    ensures HeaderNames(Header) == ["id", "name", "compartment", "barcode"]
  {
    assert Header == "id" + [','] + ("name" + [','] + ("compartment" + [','] + "barcode"));
    HeaderWords();
    HeaderNamesOfWords("id", "name", "compartment", "barcode");
  }

  /** A row over four distinct column names is fixed by its fields. */
  lemma RowOfFour(w: string, x: string, y: string, z: string, fields: seq<string>, row: Row)
    requires w != x && w != y && w != z && x != y && x != z && y != z
    requires RowOf([w, x, y, z], fields, row)
    ensures row == map[w := FieldValue(fields, 0), x := FieldValue(fields, 1),
                       y := FieldValue(fields, 2), z := FieldValue(fields, 3)]
  {
    KeysOfFour(w, x, y, z, fields, row);
    var headers := [w, x, y, z];
    assert row[w] == FieldValue(fields, 0) by { assert LastColumn(headers, 0); ValueAt(headers, fields, row, 0); }
    assert row[x] == FieldValue(fields, 1) by { assert LastColumn(headers, 1); ValueAt(headers, fields, row, 1); }
    assert row[y] == FieldValue(fields, 2) by { assert LastColumn(headers, 2); ValueAt(headers, fields, row, 2); }
    assert row[z] == FieldValue(fields, 3) by { assert LastColumn(headers, 3); ValueAt(headers, fields, row, 3); }
    MapOfFour(row, w, x, y, z, FieldValue(fields, 0), FieldValue(fields, 1), FieldValue(fields, 2), FieldValue(fields, 3));
  }

  lemma KeysOfFour(w: string, x: string, y: string, z: string, fields: seq<string>, row: Row)
    requires RowOf([w, x, y, z], fields, row)
    ensures row.Keys == {w, x, y, z}
  {
    forall h ensures h in row <==> h in {w, x, y, z} {
      assert h in [w, x, y, z] <==> h == w || h == x || h == y || h == z;
    }
  }

  lemma ValueAt(headers: seq<string>, fields: seq<string>, row: Row, k: nat)
    requires RowOf(headers, fields, row)
    requires k < |headers| && LastColumn(headers, k)
    ensures headers[k] in row && row[headers[k]] == FieldValue(fields, k)
  {
  }

  lemma MapOfFour(row: Row, w: string, x: string, y: string, z: string, a: string, b: string, c: string, d: string)
    requires w != x && w != y && w != z && x != y && x != z && y != z
    requires row.Keys == {w, x, y, z}
    requires row[w] == a && row[x] == b && row[y] == c && row[z] == d
    ensures row == map[w := a, x := b, y := c, z := d]
  {
  }

  /** A key's decimal text is its own field value. */
  lemma FieldValueOfKey(n: nat)
    ensures Trim(StripOuterQuotes(DecimalText(n))) == DecimalText(n)
  {
    var d := DecimalText(n);
    DecimalTextPlain(n);
    assert d[0] != '"' && d[|d| - 1] != '"';
  }

  /** A row over the four export columns whose fields were read back from tidy text. */
  lemma RowOfTidyFields(n: nat, name: string, compartment: string, barcode: string, row: Row)
    requires Tidy(name) && Tidy(compartment) && Tidy(barcode)
    requires RowOf(["id", "name", "compartment", "barcode"],
                   [DecimalText(n), ScannedText(name), ScannedText(compartment), ScannedText(barcode)], row)
    ensures row == map["id" := DecimalText(n), "name" := name, "compartment" := compartment, "barcode" := barcode]
  {
    var fields := [DecimalText(n), ScannedText(name), ScannedText(compartment), ScannedText(barcode)];
    RowOfFour("id", "name", "compartment", "barcode", fields, row);
    assert FieldValue(fields, 0) == DecimalText(n) by { FieldValueOfKey(n); }
    assert FieldValue(fields, 1) == name by { FieldValueOfTidy(name); }
    assert FieldValue(fields, 2) == compartment by { FieldValueOfTidy(compartment); }
    assert FieldValue(fields, 3) == barcode by { FieldValueOfTidy(barcode); }
  }

  /** A row read from an exported line holds the record's key and text fields. */
  lemma RowOfExport(m: Med, row: Row)
    requires Exportable(m)
    requires RowOf(HeaderNames(Header), ScanFields(CsvLine(m)), row)
    ensures row == ExpectedRow(m)
  {
    var fields := [DecimalText(m.id), ScannedText(Text(m.name)), ScannedText(Text(m.compartment)), ScannedText(Text(m.barcode))];
    assert RowOf(["id", "name", "compartment", "barcode"], fields, row) by {
      HeaderColumns();
      ScanCsvLine(m);
    }
    RowOfTidyFields(m.id, Text(m.name), Text(m.compartment), Text(m.barcode), row);
  }

  /** An exported record line is one line, starts with a digit and ends with a quote. */
  lemma CsvLineTidy(m: Med)
    requires NoLineBreak(m)
    ensures TidyLine(CsvLine(m))
  {
    var r := CsvLine(m);
    var id := DecimalText(m.id);
    assert r[0] == (id + [','])[0] == id[0];
    CsvLineBreaks(m);
  }

  lemma HeaderTidy()
    ensures TidyLine(Header)
  {
    assert forall j | 0 <= j < |Header| :: Header[j] != '\n';
  }

  /** A line the import reads back unchanged: one line, not blank, not padded, no trailing carriage return. */
  predicate TidyLine(l: string) {
    '\n' !in l && l != [] && Trimmed(l) && l[|l| - 1] != '\r'
  }

  /** Joining tidy lines and reading the text back gives the lines. */
  lemma NonBlankLinesOfTidy(lines: seq<string>)
    requires |lines| >= 1
    requires forall i | 0 <= i < |lines| :: TidyLine(lines[i])
    ensures NonBlankLines(Join(lines, '\n')) == lines
  {
    SplitLinesJoin(lines);
    NonBlankKeepsTidyLines(lines);
  }

  lemma CsvLinesTidy(meds: seq<Med>)
    requires forall i | 0 <= i < |meds| :: NoLineBreak(meds[i])
    ensures forall i | 0 <= i < |meds| :: TidyLine(CsvLines(meds)[i])
  {
    forall i | 0 <= i < |meds| ensures TidyLine(CsvLines(meds)[i]) {
      CsvLineTidy(meds[i]);
    }
  }

  /** The export's lines: the header, then one line per record, none blank, none padded. */
  lemma ExportLines(meds: seq<Med>)
    requires forall i | 0 <= i < |meds| :: NoLineBreak(meds[i])
    ensures NonBlankLines(ToCsv(meds)) == [Header] + CsvLines(meds)
  {
    var lines := [Header] + CsvLines(meds);
    assert forall i | 0 <= i < |lines| :: TidyLine(lines[i]) by {
      HeaderTidy();
      CsvLinesTidy(meds);
    }
    NonBlankLinesOfTidy(lines);
  }

  /** Text whose non-blank lines are a header and data lines gives one row per data line. */
  lemma ParseCsvOfLines(text: string, header: string, data: seq<string>)
    requires NonBlankLines(text) == [header] + data
    ensures |ParseCsv(text)| == |data|
    ensures forall i | 0 <= i < |data| :: RowOf(HeaderNames(header), ScanFields(data[i]), ParseCsv(text)[i])
  {
    var lines := [header] + data;
    assert lines[0] == header;
    assert forall i | 0 <= i < |data| :: lines[i + 1] == data[i];
  }

  /**
   Exporting records whose text fields are tidy and importing the result
   gives, in order, one object per record holding its key as decimal text and
   its text fields unchanged, commas and inner quotes included; an absent
   field comes back as `''`.
   */
  lemma ExportThenImport(meds: seq<Med>)
    requires forall i | 0 <= i < |meds| :: Exportable(meds[i])
    ensures |ParseCsv(ToCsv(meds))| == |meds|
    ensures forall i | 0 <= i < |meds| :: ParseCsv(ToCsv(meds))[i] == ExpectedRow(meds[i])
  {
    var rows := ParseCsv(ToCsv(meds));
    ExportLines(meds);
    ParseCsvOfLines(ToCsv(meds), Header, CsvLines(meds));
    forall i | 0 <= i < |meds| ensures rows[i] == ExpectedRow(meds[i]) {
      RowOfExport(meds[i], rows[i]);
    }
  }
}

=== FILE: csv_writer.dfy ===
/** `toCSV`: the export side of the CSV transcoder. */
module CsvWriter {
  import opened Strings
  import opened Records

  /** The header line the export always starts with. */
  const Header: string := "id,name,compartment,barcode"

  /** `.replace(/"/g, '""')`: every double quote doubled, nothing else touched. */
  function DoubleQuotes(s: string): (r: string)
    ensures |r| == |s| + Count(s, '"')
    ensures s != [] ==> r != [] && r[0] == s[0]
  {
    if s == [] then [] else Doubled(s[0]) + DoubleQuotes(s[1..])
  }

  /** One character as `DoubleQuotes` writes it. */
  function Doubled(c: char): string {
    if c == '"' then "\"\"" else [c]
  }

  /** Doubling quotes neither adds nor removes any other character. */
  lemma {:induction false} DoubleQuotesChars(s: string, c: char)
    requires c != '"'
    ensures c in DoubleQuotes(s) <==> c in s
    decreases |s|
  {
    if s != [] {
      DoubleQuotesChars(s[1..], c);
      assert c in Doubled(s[0]) <==> c == s[0];
      assert s == [s[0]] + s[1..];
    }
  }

  /** A text field as exported: wrapped in double quotes, inner quotes doubled. */
  function Quote(s: string): (r: string)
    ensures |r| >= 2 && r[0] == '"' && r[|r| - 1] == '"'
  {
    "\"" + DoubleQuotes(s) + "\""
  }

  /** Quoting adds only double quotes. */
  lemma QuoteChars(s: string, c: char)
    requires c != '"'
    ensures c in Quote(s) <==> c in s
  {
    DoubleQuotesChars(s, c);
  }

  /** No text field of the record holds a line feed. */
  predicate NoLineBreak(m: Med) {
    '\n' !in Text(m.name) && '\n' !in Text(m.compartment) && '\n' !in Text(m.barcode)
  }

  /** One exported record: the key unquoted, then the three quoted text fields. */
  function CsvLine(m: Med): (r: string)
    ensures DecimalText(m.id) + [','] <= r
    ensures r[|r| - 1] == '"'
    ensures m.barcode.None? ==> r[|r| - 3..] == ",\"\""
  {
    DecimalText(m.id) + "," + Quote(Text(m.name)) + "," + Quote(Text(m.compartment)) + "," + Quote(Text(m.barcode))
  }

  /** A record's line holds a line feed exactly when one of its text fields does. */
  lemma CsvLineBreaks(m: Med)
    ensures '\n' in CsvLine(m) <==> !NoLineBreak(m)
  {
    var id := DecimalText(m.id);
    var n, c, b := Quote(Text(m.name)), Quote(Text(m.compartment)), Quote(Text(m.barcode));
    assert CsvLine(m) == id + "," + n + "," + c + "," + b;
    assert '\n' !in id && '\n' !in ",";
    QuoteChars(Text(m.name), '\n');
    QuoteChars(Text(m.compartment), '\n');
    QuoteChars(Text(m.barcode), '\n');
  }

  function CsvLines(meds: seq<Med>): (lines: seq<string>)
    ensures |lines| == |meds|
  {
    seq(|meds|, i requires 0 <= i < |meds| => CsvLine(meds[i]))
  }

  /** The export text: the header line and one line per record, joined by line feeds. */
  function ToCsv(meds: seq<Med>): (r: string)
    ensures Header <= r
    ensures meds == [] ==> r == Header
  {
    Join([Header] + CsvLines(meds), '\n')
  }

  lemma CsvLinesNoBreak(meds: seq<Med>)
    requires forall i | 0 <= i < |meds| :: NoLineBreak(meds[i])
    ensures forall i | 0 <= i < |meds| :: '\n' !in CsvLines(meds)[i]
  {
    forall i | 0 <= i < |meds| ensures '\n' !in CsvLines(meds)[i] {
      CsvLineBreaks(meds[i]);
    }
  }

  /**
   As long as no field holds a line feed, the export has exactly one line per
   record after the header, each the record's own line.
   */
  lemma ToCsvLines(meds: seq<Med>)
    requires forall i | 0 <= i < |meds| :: NoLineBreak(meds[i])
    ensures Split(ToCsv(meds), '\n') == [Header] + CsvLines(meds)
    ensures |Split(ToCsv(meds), '\n')| == |meds| + 1
  {
    var lines := [Header] + CsvLines(meds);
    assert forall i | 0 <= i < |lines| :: '\n' !in lines[i] by {
      assert '\n' !in Header by {
        assert forall i | 0 <= i < |Header| :: Header[i] != '\n';
      }
      CsvLinesNoBreak(meds);
    }
    SplitJoin(lines, '\n');
  }
}

=== FILE: forms.dfy ===
/**
 The two ways records enter the store: the edit form (`form.onsubmit`) and
 the CSV import (`importFile.onchange`). Both refuse a record without a name
 or a compartment, so the store never gains one.
 */
module Forms {
  import opened Strings
  import opened Records
  import opened Store
  import opened CsvReader
  import opened CsvWriter
  import opened CsvRoundTrip

  /** A record every reader can show: it has a non-empty name and compartment. */
  predicate Filled(m: Med) {
    Text(m.name) != [] && Text(m.compartment) != []
  }

  predicate AllFilled(st: Store) {
    forall k | k in st.meds :: Filled(st.meds[k])
  }

  /**
   The form's fields. The hidden key field is empty for a new record and holds
   the record's key after the edit button was pressed.
   */
  datatype FormInput = FormInput(id: Option<nat>, name: string, compartment: string, barcode: string)

  /** What a submission does: nothing (with an alert), a `putMed`, or an `addMed`. */
  datatype Submission = Rejected | Update(med: Med) | Create(draft: Draft)

  /** `form.onsubmit`: trim the fields, refuse a blank name or compartment, then update or create. */
  function Submit(f: FormInput): (r: Submission)
    ensures r.Rejected? <==> AllWhitespace(f.name) || AllWhitespace(f.compartment)
    ensures r.Update? <==> !r.Rejected? && f.id.Some?
    ensures r.Update? ==> r.med.id == f.id.value && Filled(r.med)
    ensures r.Update? ==> Trimmed(Text(r.med.name)) && Trimmed(Text(r.med.compartment)) && Trimmed(Text(r.med.barcode))
    ensures r.Update? ==> && r.med.name.Some? && IsTrimOf(r.med.name.value, f.name)
                          && r.med.compartment.Some? && IsTrimOf(r.med.compartment.value, f.compartment)
                          && r.med.barcode.Some? && IsTrimOf(r.med.barcode.value, f.barcode)
    ensures r.Create? ==> r.draft.name != [] && r.draft.compartment != []
    ensures r.Create? ==> Trimmed(r.draft.name) && Trimmed(r.draft.compartment) && Trimmed(r.draft.barcode)
    ensures r.Create? ==> && IsTrimOf(r.draft.name, f.name) && IsTrimOf(r.draft.compartment, f.compartment)
                          && IsTrimOf(r.draft.barcode, f.barcode)
  {
    var name := Trim(f.name);
    var comp := Trim(f.compartment);
    var barcode := Trim(f.barcode);
    TrimIsTrimOf(f.name);
    TrimIsTrimOf(f.compartment);
    TrimIsTrimOf(f.barcode);
    if name == [] || comp == [] then Rejected
    else match f.id
      case Some(id) => Update(Med(id, Some(name), Some(comp), Some(barcode)))
      case None => Create(Draft(name, comp, barcode))
  }

  /** The form as the edit button fills it from a stored record. */
  function EditForm(m: Med): FormInput {
    FormInput(Some(m.id), Text(m.name), Text(m.compartment), Text(m.barcode))
  }

  /**
   Editing a record whose text is already trimmed and saving it unchanged
   writes the same record back; only an absent barcode becomes `''`.
   */
  lemma EditThenSave(m: Med)
    requires Filled(m) && m.name.Some? && m.compartment.Some?
    requires Trimmed(Text(m.name)) && Trimmed(Text(m.compartment)) && Trimmed(Text(m.barcode))
    ensures Submit(EditForm(m)) == Update(m.(barcode := Some(Text(m.barcode))))
  {
  }

  /** The store after a submission. */
  function Apply(st: Store, f: FormInput): (st': Store)
    requires Valid(st)
    ensures Valid(st')
    ensures AllFilled(st) ==> AllFilled(st')
    ensures Submit(f).Rejected? ==> st' == st
    ensures forall k | k in st.meds :: k in st'.meds
  {
    match Submit(f)
    case Rejected => st
    case Update(m) => Put(st, m)
    case Create(d) => Add(st, d).0
  }

  /** `!r.name || !r.compartment`, negated: the row names a non-empty name and compartment. */
  predicate Qualifies(r: Row) {
    "name" in r && r["name"] != [] && "compartment" in r && r["compartment"] != []
  }

  /** The record an imported row becomes; a missing barcode is `''`. */
  function DraftOf(r: Row): (d: Draft)
    requires Qualifies(r)
    ensures d.name == r["name"] && d.compartment == r["compartment"]
    ensures d.name != [] && d.compartment != []
    ensures "barcode" in r ==> d.barcode == r["barcode"]
    ensures "barcode" !in r ==> d.barcode == ""
  {
    Draft(r["name"], r["compartment"], if "barcode" in r then r["barcode"] else "")
  }

  /** The records an import adds, in file order: one per qualifying row. */
  function ImportDrafts(rows: seq<Row>): (ds: seq<Draft>)
    ensures |ds| <= |rows|
    ensures forall i | 0 <= i < |ds| :: ds[i].name != [] && ds[i].compartment != []
  {
    if rows == [] then []
    else
      var rest := ImportDrafts(rows[1..]);
      if Qualifies(rows[0]) then [DraftOf(rows[0])] + rest else rest
  }

  /** Importing two batches of rows adds the records of the first, then those of the second. */
  lemma {:induction false} ImportDraftsAppend(a: seq<Row>, b: seq<Row>)
    ensures ImportDrafts(a + b) == ImportDrafts(a) + ImportDrafts(b)
  {
    if a == [] {
      assert a + b == b;
    } else {
      var ab := a + b;
      assert ab[0] == a[0] && ab[1..] == a[1..] + b;
      ImportDraftsAppend(a[1..], b);
      var rest := ImportDrafts(a[1..]);
      if Qualifies(a[0]) {
        assert ImportDrafts(ab) == [DraftOf(a[0])] + (rest + ImportDrafts(b));
      } else {
        assert ImportDrafts(ab) == rest + ImportDrafts(b);
      }
    }
  }

  /** Reading one more row adds its record when it qualifies. */
  lemma ImportDraftsSnoc(rows: seq<Row>, i: nat)
    requires i < |rows|
    ensures ImportDrafts(rows[..i + 1]) == ImportDrafts(rows[..i]) + (if Qualifies(rows[i]) then [DraftOf(rows[i])] else [])
  {
    var r := rows[i];
    ImportDraftsAppend(rows[..i], [r]);
    assert rows[..i + 1] == rows[..i] + [r];
    assert ImportDrafts([r]) == (if Qualifies(r) then [DraftOf(r)] else []) by {
      assert [r][1..] == [];
    }
  }

  /** When every row qualifies, each row adds its own record. */
  lemma {:induction false} ImportDraftsAllQualify(rows: seq<Row>)
    requires forall i | 0 <= i < |rows| :: Qualifies(rows[i])
    ensures |ImportDrafts(rows)| == |rows|
    ensures forall i | 0 <= i < |rows| :: ImportDrafts(rows)[i] == DraftOf(rows[i])
  {
    if rows != [] {
      ImportDraftsAllQualify(rows[1..]);
      var ds := ImportDrafts(rows);
      assert ds == [DraftOf(rows[0])] + ImportDrafts(rows[1..]);
      forall i | 0 <= i < |rows| ensures ds[i] == DraftOf(rows[i]) {
        if i > 0 {
          assert rows[1..][i - 1] == rows[i];
        }
      }
    }
  }

  /** The record `addMed` stores for a draft under key `key`. */
  function MedOf(key: nat, d: Draft): Med {
    Med(key, Some(d.name), Some(d.compartment), Some(d.barcode))
  }

  /**
   `st` is `st0` after adding the drafts `ds` in order: the old records are
   untouched and draft `j` sits under the `j`-th key the generator handed out.
   */
  ghost predicate Extends(st0: Store, st: Store, ds: seq<Draft>) {
    && Valid(st)
    && st.next == st0.next + |ds|
    && (forall k | k in st0.meds :: k in st.meds && st.meds[k] == st0.meds[k])
    && (forall k :: k in st.meds <==> k in st0.meds || st0.next <= k < st0.next + |ds|)
    && (forall j | 0 <= j < |ds| :: st.meds[st0.next + j] == MedOf(st0.next + j, ds[j]))
  }

  /** Storing one more draft under the generator's key extends the run by that draft. */
  lemma ExtendsAdd(st0: Store, st: Store, ds: seq<Draft>, d: Draft, st': Store)
    requires Valid(st0) && Extends(st0, st, ds)
    requires st'.meds == st.meds[st.next := MedOf(st.next, d)] && st'.next == st.next + 1
    ensures Extends(st0, st', ds + [d])
  {
    var ds' := ds + [d];
    forall j | 0 <= j < |ds'| ensures st'.meds[st0.next + j] == MedOf(st0.next + j, ds'[j]) {
      if j < |ds| {
        assert ds'[j] == ds[j];
      }
    }
  }

  /** Adding drafts that all have a name and a compartment keeps every record filled. */
  lemma ExtendsFilled(st0: Store, st: Store, ds: seq<Draft>)
    requires Valid(st0) && Extends(st0, st, ds) && AllFilled(st0)
    requires forall j | 0 <= j < |ds| :: ds[j].name != [] && ds[j].compartment != []
    ensures AllFilled(st)
  {
    forall k | k in st.meds ensures Filled(st.meds[k]) {
      if k !in st0.meds {
        assert st.meds[st0.next + (k - st0.next)] == MedOf(k, ds[k - st0.next]);
      }
    }
  }

  /** One pass of the import loop: row `i` is added when it qualifies, and counted. */
  method ImportRow(st0: Store, st: Store, count: nat, rows: seq<Row>, i: nat) returns (st': Store, count': nat)
    requires Valid(st0) && i < |rows|
    requires count == |ImportDrafts(rows[..i])| && Extends(st0, st, ImportDrafts(rows[..i]))
    ensures count' == |ImportDrafts(rows[..i + 1])| && Extends(st0, st', ImportDrafts(rows[..i + 1]))
  {
    var r := rows[i];
    var ds := ImportDrafts(rows[..i]);
    ImportDraftsSnoc(rows, i);
    if Qualifies(r) {
      var d := DraftOf(r);
      assert ImportDrafts(rows[..i + 1]) == ds + [d];
      var added := Add(st, d).0;
      ExtendsAdd(st0, st, ds, d, added);
      st', count' := added, count + 1;
    } else {
      assert ImportDrafts(rows[..i + 1]) == ds;
      st', count' := st, count;
    }
  }

  /**
   `importFile.onchange`: add every qualifying row in order and count them.
   The records already stored are untouched and the new ones take the next
   keys of the generator.
   */
  method Import(st: Store, rows: seq<Row>) returns (st': Store, count: nat)
    requires Valid(st)
    ensures Valid(st')
    ensures count == |ImportDrafts(rows)|
    ensures st'.next == st.next + count
    ensures forall k | k in st.meds :: k in st'.meds && st'.meds[k] == st.meds[k]
    ensures forall k :: k in st'.meds <==> k in st.meds || st.next <= k < st.next + count
    ensures forall i | 0 <= i < count :: st'.meds[st.next + i] == MedOf(st.next + i, ImportDrafts(rows)[i])
    ensures AllFilled(st) ==> AllFilled(st')
  {
    st' := st;
    count := 0;
    var i := 0;
    while i < |rows|
      invariant 0 <= i <= |rows|
      invariant count == |ImportDrafts(rows[..i])|
      invariant Extends(st, st', ImportDrafts(rows[..i]))
    {
      st', count := ImportRow(st, st', count, rows, i);
      i := i + 1;
    }
    assert rows[..i] == rows;
    if AllFilled(st) {
      ExtendsFilled(st, st', ImportDrafts(rows));
    }
  }

  /** The row exported for a filled record qualifies and becomes a draft with the record's text. */
  lemma DraftOfExpected(m: Med)
    requires Filled(m)
    ensures Qualifies(ExpectedRow(m))
    ensures DraftOf(ExpectedRow(m)) == Draft(Text(m.name), Text(m.compartment), Text(m.barcode))
  {
  }

  /** Rows that are the expected rows of filled records import as those records' text. */
  lemma ImportOfRows(rows: seq<Row>, meds: seq<Med>)
    requires |rows| == |meds|
    requires forall i | 0 <= i < |meds| :: Filled(meds[i]) && rows[i] == ExpectedRow(meds[i])
    ensures |ImportDrafts(rows)| == |meds|
    ensures forall i | 0 <= i < |meds| :: ImportDrafts(rows)[i]
                                          == Draft(Text(meds[i].name), Text(meds[i].compartment), Text(meds[i].barcode))
  {
    forall i | 0 <= i < |rows| ensures Qualifies(rows[i]) {
      DraftOfExpected(meds[i]);
    }
    ImportDraftsAllQualify(rows);
    forall i | 0 <= i < |meds|
      ensures ImportDrafts(rows)[i] == Draft(Text(meds[i].name), Text(meds[i].compartment), Text(meds[i].barcode))
    {
      DraftOfExpected(meds[i]);
    }
  }

  /**
   Importing the export of filled records whose text fields are tidy adds
   one record per exported record, with the same name, compartment and
   barcode.
   */
  lemma ImportOfExport(meds: seq<Med>)
    requires forall i | 0 <= i < |meds| :: Exportable(meds[i]) && Filled(meds[i])
    ensures |ImportDrafts(ParseCsv(ToCsv(meds)))| == |meds|
    ensures forall i | 0 <= i < |meds| :: ImportDrafts(ParseCsv(ToCsv(meds)))[i]
                                          == Draft(Text(meds[i].name), Text(meds[i].compartment), Text(meds[i].barcode))
  {
    ExportThenImport(meds);
    ImportOfRows(ParseCsv(ToCsv(meds)), meds);
  }
}

=== FILE: html.dfy ===
/** `escapeHtml`: the one-pass entity replacement used before text is put into markup. */
module Html {

  predicate IsSpecial(c: char) {
    c == '&' || c == '<' || c == '>' || c == '"' || c == '\''
  }

  /** Characters that could open a tag or close an attribute value. */
  predicate IsMarkup(c: char) {
    c == '<' || c == '>' || c == '"' || c == '\''
  }

  /** The replacement of one character. */
  function Entity(c: char): string {
    match c
    case '&' => "&amp;"
    case '<' => "&lt;"
    case '>' => "&gt;"
    case '"' => "&quot;"
    case '\'' => "&#39;"
    case _ => [c]
  }

  /**
   Replace each of `& < > " '` by its entity, left to right, every other
   character unchanged.
   */
  function EscapeHtml(s: string): (r: string)
    ensures forall i | 0 <= i < |r| :: !IsMarkup(r[i])
    ensures (forall i | 0 <= i < |s| :: !IsSpecial(s[i])) ==> r == s
    ensures |r| >= |s|
  {
    if s == [] then []
    else
      var e, rest := Entity(s[0]), EscapeHtml(s[1..]);
      EntityNoMarkup(s[0]);
      assert forall i | 0 <= i < |e + rest| :: (e + rest)[i] == if i < |e| then e[i] else rest[i - |e|];
      e + rest
  }

  /** The replacement of one character holds no markup character, and is longer only for a special one. */
  lemma EntityNoMarkup(c: char)
    ensures forall i | 0 <= i < |Entity(c)| :: !IsMarkup(Entity(c)[i])
    ensures |Entity(c)| >= 1
    ensures !IsSpecial(c) ==> Entity(c) == [c]
  {
  }

  /** Escaping distributes over concatenation: it is a character-by-character map. */
  lemma {:induction false} EscapeHtmlAppend(a: string, b: string)
    ensures EscapeHtml(a + b) == EscapeHtml(a) + EscapeHtml(b)
    decreases |a|
  {
    if a == [] {
      assert a + b == b;
    } else {
      assert (a + b)[0] == a[0] && (a + b)[1..] == a[1..] + b;
      EscapeHtmlAppend(a[1..], b);
      assert EscapeHtml(a + b) == Entity(a[0]) + (EscapeHtml(a[1..]) + EscapeHtml(b));
    }
  }

  /** Decoding of the five entities `EscapeHtml` produces; any other text is kept. */
  function UnescapeHtml(t: string): string
    decreases |t|
  {
    if t == [] then []
    else if "&amp;" <= t then "&" + UnescapeHtml(t[5..])
    else if "&lt;" <= t then "<" + UnescapeHtml(t[4..])
    else if "&gt;" <= t then ">" + UnescapeHtml(t[4..])
    else if "&quot;" <= t then "\"" + UnescapeHtml(t[6..])
    else if "&#39;" <= t then "'" + UnescapeHtml(t[5..])
    else [t[0]] + UnescapeHtml(t[1..])
  }

  /** Decoding reads the entity of `c` back as `c`. */
  lemma UnescapeEntity(c: char, rest: string)
    ensures UnescapeHtml(Entity(c) + rest) == [c] + UnescapeHtml(rest)
  {
    match c
    case '&' => UnescapeAmp(rest);
    case '<' => UnescapeLt(rest);
    case '>' => UnescapeGt(rest);
    case '"' => UnescapeQuot(rest);
    case '\'' => UnescapeApos(rest);
    case _ => UnescapePlain(c, rest);
  }

  lemma UnescapePlain(c: char, rest: string)
    requires c != '&'
    ensures UnescapeHtml([c] + rest) == [c] + UnescapeHtml(rest)
  {
    var t := [c] + rest;
    assert t[0] == c && t[1..] == rest;
    assert !("&amp;" <= t) && !("&lt;" <= t) && !("&gt;" <= t) && !("&quot;" <= t) && !("&#39;" <= t) by {
      assert "&amp;"[0] == '&' && "&lt;"[0] == '&' && "&gt;"[0] == '&' && "&quot;"[0] == '&' && "&#39;"[0] == '&';
    }
  }

  lemma UnescapeAmp(rest: string)
    ensures UnescapeHtml("&amp;" + rest) == "&" + UnescapeHtml(rest)
  {
    var t := "&amp;" + rest;
    assert "&amp;" <= t && t[5..] == rest;
  }

  lemma UnescapeLt(rest: string)
    ensures UnescapeHtml("&lt;" + rest) == "<" + UnescapeHtml(rest)
  {
    var t := "&lt;" + rest;
    assert t[1] == 'l' && "&amp;"[1] == 'a';
    assert "&lt;" <= t && t[4..] == rest;
  }

  lemma UnescapeGt(rest: string)
    ensures UnescapeHtml("&gt;" + rest) == ">" + UnescapeHtml(rest)
  {
    var t := "&gt;" + rest;
    assert t[1] == 'g' && "&amp;"[1] == 'a' && "&lt;"[1] == 'l';
    assert "&gt;" <= t && t[4..] == rest;
  }

  lemma UnescapeQuot(rest: string)
    ensures UnescapeHtml("&quot;" + rest) == "\"" + UnescapeHtml(rest)
  {
    var t := "&quot;" + rest;
    assert t[1] == 'q' && "&amp;"[1] == 'a' && "&lt;"[1] == 'l' && "&gt;"[1] == 'g';
    assert "&quot;" <= t && t[6..] == rest;
  }

  lemma UnescapeApos(rest: string)
    ensures UnescapeHtml("&#39;" + rest) == "'" + UnescapeHtml(rest)
  {
    var t := "&#39;" + rest;
    assert t[1] == '#' && "&amp;"[1] == 'a' && "&lt;"[1] == 'l' && "&gt;"[1] == 'g' && "&quot;"[1] == 'q';
    assert "&#39;" <= t && t[5..] == rest;
  }

  /** Escaping loses nothing: decoding the entities gives back the original text. */
  lemma {:induction false} EscapeHtmlRoundTrip(s: string)
    ensures UnescapeHtml(EscapeHtml(s)) == s
    decreases |s|
  {
    if s != [] {
      EscapeHtmlRoundTrip(s[1..]);
      UnescapeEntity(s[0], EscapeHtml(s[1..]));
      assert [s[0]] + s[1..] == s;
    }
  }
}

=== FILE: records.dfy ===
/** The one entity of the inventory: a stored medicine record. */
module Records {

  datatype Option<+T> = None | Some(value: T)

  /**
   A medicine as the store hands it back. The key `id` is always present (it is
   the store's key path); the text fields may be absent on records written by
   other code, and every reader treats an absent field as `''`.
   */
  datatype Med = Med(id: nat, name: Option<string>, compartment: Option<string>, barcode: Option<string>)

  /** A medicine about to be added: the store has not yet assigned its key. */
  datatype Draft = Draft(name: string, compartment: string, barcode: string)

  /** `field || ''`: the text of a field, empty when the field is absent. */
  function Text(field: Option<string>): string {
    match field
    case Some(s) => s
    case None => ""
  }
}

=== FILE: search.dfy ===
/**
 The list view's search (`refresh`): the query is trimmed and lower-cased, a
 record is kept when its lower-cased name, compartment or barcode contains the
 query, and the kept records are sorted by name. `localeCompare` is modelled
 by the lexicographic order of code points, a total order.
 */
module Search {
  import opened Strings
  import opened Records

  /** `q.trim().toLowerCase()`. */
  function NormalizeQuery(q: string): (s: string)
    ensures s == [] <==> AllWhitespace(q)
    ensures forall i | 0 <= i < |s| :: !('A' <= s[i] <= 'Z')
  {
    Lower(Trim(q))
  }

  /** The record's name, compartment or barcode, lower-cased, contains `s`. */
  predicate Matches(m: Med, s: string) {
    || Includes(Lower(Text(m.name)), s)
    || Includes(Lower(Text(m.compartment)), s)
    || Includes(Lower(Text(m.barcode)), s)
  }

  /** The filter callback: an empty query keeps every record. */
  predicate Keep(m: Med, s: string) {
    s == [] || Matches(m, s)
  }

  /** `all.filter(...)`: the records kept, in their original order. */
  function Filter(all: seq<Med>, s: string): (r: seq<Med>)
    ensures |r| <= |all|
    ensures forall m {:trigger m in r} :: m in r <==> m in all && Keep(m, s)
    ensures multiset(r) <= multiset(all)
    ensures forall m {:trigger multiset(r)[m]} :: multiset(r)[m] == if Keep(m, s) then multiset(all)[m] else 0
  {
    if all == [] then []
    else
      var rest := Filter(all[1..], s);
      assert all == [all[0]] + all[1..];
      FilterGrows(all[0], all[1..], rest, s);
      if Keep(all[0], s) then [all[0]] + rest else rest
  }

  /** The inductive step of `Filter`'s contract: putting one record in front keeps it. */
  lemma FilterGrows(h: Med, t: seq<Med>, rest: seq<Med>, s: string)
    requires |rest| <= |t|
    requires forall m {:trigger m in rest} :: m in rest <==> m in t && Keep(m, s)
    requires multiset(rest) <= multiset(t)
    requires forall m {:trigger multiset(rest)[m]} :: multiset(rest)[m] == if Keep(m, s) then multiset(t)[m] else 0
    ensures var r := if Keep(h, s) then [h] + rest else rest;
      && |r| <= |[h] + t|
      && (forall m {:trigger m in r} :: m in r <==> m in [h] + t && Keep(m, s))
      && multiset(r) <= multiset([h] + t)
      && (forall m {:trigger multiset(r)[m]} :: multiset(r)[m] == if Keep(m, s) then multiset([h] + t)[m] else 0)
  {
  }

  /** Filtering two runs one after the other filters each, keeping their order. */
  lemma {:induction false} FilterAppend(a: seq<Med>, b: seq<Med>, s: string)
    ensures Filter(a + b, s) == Filter(a, s) + Filter(b, s)
  {
    if a == [] {
      assert a + b == b;
    } else {
      var h, t := a[0], a[1..];
      assert a == [h] + t;
      assert a + b == [h] + (t + b);
      FilterAppend(t, b, s);
      FilterCons(h, t, s);
      FilterCons(h, t + b, s);
      var k := if Keep(h, s) then [h] else [];
      PrefixStep(k, Filter(t, s), Filter(b, s), Filter(a, s), Filter(a + b, s));
    }
  }

  /** The step of `FilterAppend`, stated on plain sequences. */
  lemma PrefixStep(k: seq<Med>, x: seq<Med>, y: seq<Med>, fa: seq<Med>, fab: seq<Med>)
    requires fa == k + x && fab == k + (x + y)
    ensures fab == fa + y
  {
  }

  /** `Filter` of a record followed by a run: the record, if kept, then the run's filter. */
  lemma FilterCons(h: Med, t: seq<Med>, s: string)
    ensures Filter([h] + t, s) == (if Keep(h, s) then [h] else []) + Filter(t, s)
  {
    assert ([h] + t)[0] == h && ([h] + t)[1..] == t;
  }

  /** An empty query keeps the whole collection, in order. */
  lemma {:induction false} FilterEmptyQuery(all: seq<Med>)
    ensures Filter(all, []) == all
  {
    if all != [] {
      FilterEmptyQuery(all[1..]);
      assert [all[0]] + all[1..] == all;
    }
  }

  /** With a non-empty query, a record is kept exactly when one of its fields has the query as a piece. */
  lemma KeepMeansInfix(m: Med, s: string)
    requires s != []
    ensures Keep(m, s) <==> || IsInfix(s, Lower(Text(m.name)))
                            || IsInfix(s, Lower(Text(m.compartment)))
                            || IsInfix(s, Lower(Text(m.barcode)))
  {
    IncludesIsInfix(Lower(Text(m.name)), s);
    IncludesIsInfix(Lower(Text(m.compartment)), s);
    IncludesIsInfix(Lower(Text(m.barcode)), s);
  }

  /** Lexicographic order on code points: the stand-in for `localeCompare(...) <= 0`. */
  predicate LexLeq(a: string, b: string) {
    if a == [] then true
    else if b == [] then false
    else if a[0] != b[0] then a[0] < b[0]
    else LexLeq(a[1..], b[1..])
  }

  lemma {:induction false} LexLeqTotal(a: string, b: string)
    ensures LexLeq(a, b) || LexLeq(b, a)
  {
    if a != [] && b != [] && a[0] == b[0] {
      LexLeqTotal(a[1..], b[1..]);
    }
  }

  lemma {:induction false} LexLeqTransitive(a: string, b: string, c: string)
    requires LexLeq(a, b) && LexLeq(b, c)
    ensures LexLeq(a, c)
  {
    if a != [] && b != [] && c != [] && a[0] == b[0] && b[0] == c[0] {
      LexLeqTransitive(a[1..], b[1..], c[1..]);
    }
  }

  lemma {:induction false} LexLeqAntisymmetric(a: string, b: string)
    requires LexLeq(a, b) && LexLeq(b, a)
    ensures a == b
  {
    if a != [] && b != [] {
      LexLeqAntisymmetric(a[1..], b[1..]);
      assert a == [a[0]] + a[1..] && b == [b[0]] + b[1..];
    }
  }

  /** The sort comparator: `(a.name||'').localeCompare(b.name||'') <= 0`. */
  predicate NameLeq(a: Med, b: Med) {
    LexLeq(Text(a.name), Text(b.name))
  }

  predicate SortedByName(ms: seq<Med>) {
    forall i, j | 0 <= i < j < |ms| :: NameLeq(ms[i], ms[j])
  }

  /** Insert `m` before the first record it does not follow. */
  function Insert(m: Med, ms: seq<Med>): (r: seq<Med>)
    requires SortedByName(ms)
    ensures SortedByName(r)
    ensures multiset(r) == multiset(ms) + multiset{m}
  {
    if ms == [] then [m]
    else if NameLeq(m, ms[0]) then
      InsertFront(m, ms);
      [m] + ms
    else
      var rest := Insert(m, ms[1..]);
      LexLeqTotal(Text(m.name), Text(ms[0].name));
      InsertBehind(ms, m, rest);
      [ms[0]] + rest
  }

  /** A record no later than the first of a sorted run heads a sorted run. */
  lemma InsertFront(m: Med, ms: seq<Med>)
    requires ms != [] && SortedByName(ms) && NameLeq(m, ms[0])
    ensures SortedByName([m] + ms)
  {
    var r := [m] + ms;
    forall i, j | 0 <= i < j < |r| ensures NameLeq(r[i], r[j]) {
      if i == 0 && j > 1 {
        LexLeqTransitive(Text(m.name), Text(ms[0].name), Text(ms[j - 1].name));
      }
    }
  }

  /** The head of a sorted run, followed by the run's tail with `m` inserted, is still sorted. */
  lemma InsertBehind(ms: seq<Med>, m: Med, rest: seq<Med>)
    requires ms != [] && SortedByName(ms) && NameLeq(ms[0], m)
    requires SortedByName(rest) && multiset(rest) == multiset(ms[1..]) + multiset{m}
    ensures SortedByName([ms[0]] + rest)
    ensures multiset([ms[0]] + rest) == multiset(ms) + multiset{m}
  {
    var h, tail := ms[0], ms[1..];
    assert ms == [h] + tail;
    var r := [h] + rest;
    forall i, j | 0 <= i < j < |r| ensures NameLeq(r[i], r[j]) {
      var x := rest[j - 1];
      assert r[j] == x;
      if i == 0 {
        assert x in multiset(rest);
        if x != m {
          assert x in multiset(tail);
          var k :| 0 <= k < |tail| && tail[k] == x;
          assert ms[k + 1] == x;
        }
      } else {
        assert r[i] == rest[i - 1];
      }
    }
  }

  /** The records sorted by name: an insertion sort that keeps records with equal names in input order. */
  function SortByName(ms: seq<Med>): (r: seq<Med>)
    ensures SortedByName(r)
    ensures multiset(r) == multiset(ms)
  {
    if ms == [] then []
    else
      assert ms == [ms[0]] + ms[1..];
      Insert(ms[0], SortByName(ms[1..]))
  }

  /**
   The list `refresh(q)` shows: sorted by name, a sub-collection of the
   store's records, holding each record the query keeps as often as the
   store does and no other.
   */
  function Refresh(all: seq<Med>, q: string): (r: seq<Med>)
    ensures SortedByName(r)
    ensures multiset(r) <= multiset(all)
    ensures forall m :: m in r <==> m in all && Keep(m, NormalizeQuery(q))
    ensures forall m :: multiset(r)[m] == if Keep(m, NormalizeQuery(q)) then multiset(all)[m] else 0
  {
    var kept := Filter(all, NormalizeQuery(q));
    var r := SortByName(kept);
    assert forall m :: m in r <==> m in multiset(r);
    r
  }

  /** A blank query lists every record, each as often as it is stored. */
  lemma BlankQueryKeepsAll(all: seq<Med>, q: string)
    requires AllWhitespace(q)
    ensures multiset(Refresh(all, q)) == multiset(all)
  {
    FilterEmptyQuery(all);
  }
}

=== FILE: store.dfy ===
/**
 The `meds` object store as an abstract map from key to record. The store
 keeps its records under the key path `id` and generates keys with a key
 generator (`autoIncrement`): it starts at 1, `add` of a record without a
 key takes the generator's current value and advances it, and `put` of a
 record with an explicit key at or above the generator moves the generator
 past that key.
 */
module Store {
  import opened Records

  datatype Store = Store(meds: map<nat, Med>, next: nat)

  /** Every record sits under its own key, and every key is below the generator. */
  predicate Valid(st: Store) {
    && st.next >= 1
    && forall k | k in st.meds :: k < st.next && st.meds[k].id == k
  }

  /** A freshly created store. */
  function Empty(): (st: Store)
    ensures Valid(st) && st.meds == map[]
  {
    Store(map[], 1)
  }

  /** `addMed`: the draft is stored under a key the generator hands out. */
  function Add(st: Store, d: Draft): (res: (Store, nat))
    requires Valid(st)
    ensures var (st', key) := res;
      && Valid(st')
      && key == st.next && st'.next == st.next + 1
      && key !in st.meds
      && st'.meds.Keys == st.meds.Keys + {key}
      && st'.meds[key] == Med(key, Some(d.name), Some(d.compartment), Some(d.barcode))
      && (forall k | k in st.meds :: st'.meds[k] == st.meds[k])
      && |st'.meds| == |st.meds| + 1
  {
    var key := st.next;
    (Store(st.meds[key := Med(key, Some(d.name), Some(d.compartment), Some(d.barcode))], key + 1), key)
  }

  /** `putMed`: the record replaces whatever was stored under its key, or is added under it. */
  function Put(st: Store, m: Med): (st': Store)
    requires Valid(st)
    ensures Valid(st')
    ensures st'.meds.Keys == st.meds.Keys + {m.id}
    ensures st'.meds[m.id] == m
    ensures forall k | k in st.meds && k != m.id :: st'.meds[k] == st.meds[k]
    ensures st'.next >= st.next
  {
    Store(st.meds[m.id := m], if m.id >= st.next then m.id + 1 else st.next)
  }
}

=== FILE: strings.dfy ===
/**
 The handful of JavaScript string primitives the MedFind core relies on:
 `trim`, `toLowerCase`, `split` on one character, `includes`, and the
 decimal text of a non-negative integer key (`String(id)`).
 */
module Strings {

  /** The code points JavaScript's `trim` removes: WhiteSpace and LineTerminator. */
  predicate IsWhitespace(c: char) {
    || c == ' ' || c == '\t' || c == '\n' || c == '\r' || c == '\U{000B}' || c == '\U{000C}'
    || c == '\U{00A0}' || c == '\U{FEFF}' || c == '\U{1680}'
    || ('\U{2000}' <= c <= '\U{200A}')
    || c == '\U{2028}' || c == '\U{2029}' || c == '\U{202F}' || c == '\U{205F}' || c == '\U{3000}'
  }

  /** A string `trim` leaves alone: empty, or neither end is whitespace. */
  predicate Trimmed(s: string) {
    s == [] || (!IsWhitespace(s[0]) && !IsWhitespace(s[|s| - 1]))
  }

  predicate AllWhitespace(s: string) {
    forall i | 0 <= i < |s| :: IsWhitespace(s[i])
  }

  /** `String.prototype.trim`: the string without its leading and trailing whitespace. */
  function Trim(s: string): (r: string)
    ensures Trimmed(r)
    ensures r == [] <==> AllWhitespace(s)
    ensures Trimmed(s) ==> r == s
    ensures IsInfix(r, s)
    decreases |s|
  {
    if s != [] && IsWhitespace(s[0]) then
      var r := Trim(s[1..]);
      TrimStep(s, s[1..], 1, r);
      r
    else if s != [] && IsWhitespace(s[|s| - 1]) then
      var r := Trim(s[..|s| - 1]);
      TrimStep(s, s[..|s| - 1], 0, r);
      r
    else
      assert InfixAt(s, s, 0);
      s
  }

  /** One whitespace character dropped from an end keeps the facts `Trim` promises. */
  lemma TrimStep(s: string, t: string, a: nat, r: string)
    requires |t| + 1 == |s| && a <= 1 && t == s[a..a + |t|]
    requires IsWhitespace(s[if a == 1 then 0 else |s| - 1])
    requires r == [] <==> AllWhitespace(t)
    requires IsInfix(r, t)
    ensures r == [] <==> AllWhitespace(s)
    ensures IsInfix(r, s)
  {
    var i: nat :| InfixAt(r, t, i);
    assert s[a + i..a + i + |r|] == t[i..i + |r|];
    assert InfixAt(r, s, a + i);
    if AllWhitespace(t) {
      forall j | 0 <= j < |s| ensures IsWhitespace(s[j]) {
        if a <= j < a + |t| { assert t[j - a] == s[j]; }
      }
    }
    if AllWhitespace(s) {
      forall j | 0 <= j < |t| ensures IsWhitespace(t[j]) {
        assert t[j] == s[a + j];
      }
    }
  }

  /**
   `trim` removes whitespace from the two ends and nothing else: the input is
   the result with a run of whitespace before it and one after it.
   */
  lemma {:induction false} TrimParts(s: string) returns (p: string, q: string)
    ensures s == p + Trim(s) + q
    ensures AllWhitespace(p) && AllWhitespace(q)
    decreases |s|
  {
    if s != [] && IsWhitespace(s[0]) {
      var p', q' := TrimParts(s[1..]);
      assert Trim(s) == Trim(s[1..]);
      p, q := [s[0]] + p', q';
      PadFront(s, p', Trim(s), q');
    } else if s != [] && IsWhitespace(s[|s| - 1]) {
      var p', q' := TrimParts(s[..|s| - 1]);
      assert Trim(s) == Trim(s[..|s| - 1]);
      p, q := p', q' + [s[|s| - 1]];
      PadBack(s, p', Trim(s), q');
    } else {
      p, q := [], [];
      assert s == [] + s + [];
    }
  }

  /** A whitespace character in front of `p + t + q` widens the front padding. */
  lemma PadFront(s: string, p: string, t: string, q: string)
    requires s != [] && IsWhitespace(s[0])
    requires s[1..] == p + t + q && AllWhitespace(p)
    ensures s == [s[0]] + p + t + q && AllWhitespace([s[0]] + p)
  {
    assert s == [s[0]] + s[1..];
    var w := [s[0]] + p;
    forall i | 0 <= i < |w| ensures IsWhitespace(w[i]) {
      if i > 0 { assert w[i] == p[i - 1]; }
    }
  }

  /** A whitespace character behind `p + t + q` widens the back padding. */
  lemma PadBack(s: string, p: string, t: string, q: string)
    requires s != [] && IsWhitespace(s[|s| - 1])
    requires s[..|s| - 1] == p + t + q && AllWhitespace(q)
    ensures s == p + t + (q + [s[|s| - 1]]) && AllWhitespace(q + [s[|s| - 1]])
  {
    assert s == s[..|s| - 1] + [s[|s| - 1]];
    var w := q + [s[|s| - 1]];
    forall i | 0 <= i < |w| ensures IsWhitespace(w[i]) {
      if i < |q| { assert w[i] == q[i]; }
    }
  }

  /** `t` is `s` with a run of whitespace cut from each end, leaving nothing trimmable. */
  ghost predicate IsTrimOf(t: string, s: string) {
    Trimmed(t) && exists p: string, q: string :: AllWhitespace(p) && AllWhitespace(q) && s == p + t + q
  }

  /** `trim` returns the trim of its input. */
  lemma TrimIsTrimOf(s: string)
    ensures IsTrimOf(Trim(s), s)
  {
    var p, q := TrimParts(s);
  }

  /** Conversely, a trim of `s` is exactly what `trim` returns. */
  lemma TrimOfIsTrim(t: string, s: string)
    requires IsTrimOf(t, s)
    ensures t == Trim(s)
  {
    var p: string, q: string :| AllWhitespace(p) && AllWhitespace(q) && s == p + t + q;
    TrimOfUnique(t, s, p, q);
  }

  /** There is only one trim of a string: the one `trim` returns. */
  lemma {:induction false} TrimOfUnique(t: string, s: string, p: string, q: string)
    requires Trimmed(t) && AllWhitespace(p) && AllWhitespace(q) && s == p + t + q
    ensures Trim(s) == t
    decreases |p| + |q|
  {
    if p != [] {
      var s' := CutFront(t, s, p, q);
      TrimOfUnique(t, s', p[1..], q);
    } else if q != [] && t == [] {
      assert s == q;
    } else if q != [] {
      var s' := CutBack(t, s, q);
      TrimDropLast(s);
      TrimOfUnique(t, s', [], q[..|q| - 1]);
    } else {
      assert s == t;
    }
  }

  /** The first step of `TrimOfUnique`: a leading pad character is what `trim` drops first. */
  lemma CutFront(t: string, s: string, p: string, q: string) returns (s': string)
    requires p != [] && AllWhitespace(p) && s == p + t + q
    ensures s' == s[1..] && s' == p[1..] + t + q && AllWhitespace(p[1..])
    ensures Trim(s) == Trim(s')
  {
    s' := s[1..];
    assert s[0] == p[0];
    assert s' == p[1..] + t + q;
  }

  /** With no leading pad left, the last character is a trailing pad character. */
  lemma CutBack(t: string, s: string, q: string) returns (s': string)
    requires t != [] && Trimmed(t) && q != [] && AllWhitespace(q) && s == t + q
    ensures s' == s[..|s| - 1] && s' == [] + t + q[..|q| - 1] && AllWhitespace(q[..|q| - 1])
    ensures s != [] && !IsWhitespace(s[0]) && IsWhitespace(s[|s| - 1])
  {
    s' := s[..|s| - 1];
    assert s[0] == t[0] && s[|s| - 1] == q[|q| - 1];
    assert s' == [] + t + q[..|q| - 1];
  }

  /** `trim` of a string with a clean start and a whitespace end is `trim` of it without that end. */
  lemma TrimDropLast(s: string)
    requires s != [] && !IsWhitespace(s[0]) && IsWhitespace(s[|s| - 1])
    ensures Trim(s) == Trim(s[..|s| - 1])
  {
  }

  /** Trailing whitespace never survives `trim`. */
  lemma {:induction false} TrimAppendWhitespace(s: string, c: char)
    requires IsWhitespace(c)
    ensures Trim(s + [c]) == Trim(s)
    decreases |s|
  {
    var t := s + [c];
    if s == [] {
      assert t[1..] == [];
    } else if IsWhitespace(s[0]) {
      assert t[0] == s[0] && t[1..] == s[1..] + [c];
      TrimAppendWhitespace(s[1..], c);
    } else {
      assert t[0] == s[0] && t[..|t| - 1] == s;
    }
  }

  /** `needle` occurs in `hay` starting at index `i`. */
  predicate InfixAt(needle: string, hay: string, i: nat) {
    i + |needle| <= |hay| && hay[i..i + |needle|] == needle
  }

  /** `needle` occurs as a contiguous piece of `hay`. */
  ghost predicate IsInfix(needle: string, hay: string) {
    exists i: nat :: InfixAt(needle, hay, i)
  }

  /** `String.prototype.includes`. */
  function Includes(hay: string, needle: string): (b: bool)
    decreases |hay|
  {
    if needle <= hay then true
    else if hay == [] then false
    else Includes(hay[1..], needle)
  }

  /** `Includes` answers exactly the question "is `needle` an infix of `hay`". */
  lemma {:induction false} IncludesIsInfix(hay: string, needle: string)
    ensures Includes(hay, needle) <==> IsInfix(needle, hay)
    decreases |hay|
  {
    if needle <= hay {
      assert InfixAt(needle, hay, 0);
    } else if hay == [] {
    } else {
      IncludesIsInfix(hay[1..], needle);
      if IsInfix(needle, hay[1..]) {
        var i: nat :| InfixAt(needle, hay[1..], i);
        InfixAtTail(needle, hay, i);
      }
      if IsInfix(needle, hay) {
        var i: nat :| InfixAt(needle, hay, i);
        if i > 0 {
          InfixAtTail(needle, hay, i - 1);
        }
      }
    }
  }

  /** An occurrence in the tail of `hay` is one place further along in `hay`, and back. */
  lemma InfixAtTail(needle: string, hay: string, i: nat)
    requires hay != []
    ensures InfixAt(needle, hay[1..], i) <==> InfixAt(needle, hay, i + 1)
  {
    if i + |needle| <= |hay[1..]| {
      assert hay[1..][i..i + |needle|] == hay[i + 1..i + 1 + |needle|];
    }
  }

  /** ASCII lower-casing of one character. */
  function LowerChar(c: char): (r: char)
    ensures !('A' <= r <= 'Z')
    ensures 'A' <= c <= 'Z' ==> r as int == c as int + 32
    ensures !('A' <= c <= 'Z') ==> r == c
  {
    if 'A' <= c <= 'Z' then (c as int + 32) as char else c
  }

  /** `String.prototype.toLowerCase`, restricted to ASCII letters. */
  function Lower(s: string): (r: string)
    ensures |r| == |s|
    ensures forall i | 0 <= i < |s| :: r[i] == LowerChar(s[i])
    ensures forall i | 0 <= i < |r| :: !('A' <= r[i] <= 'Z')
    ensures (forall i | 0 <= i < |s| :: !('A' <= s[i] <= 'Z')) ==> r == s
  {
    seq(|s|, i requires 0 <= i < |s| => LowerChar(s[i]))
  }

  /** Lower-casing never creates or removes whitespace, so a trimmed string stays trimmed. */
  lemma LowerKeepsTrimmed(s: string)
    requires Trimmed(s)
    ensures Trimmed(Lower(s))
  {
    if s != [] {
      var r := Lower(s);
      assert r[0] == LowerChar(s[0]) && r[|r| - 1] == LowerChar(s[|s| - 1]);
    }
  }

  function Count(s: string, c: char): nat {
    if s == [] then 0 else (if s[0] == c then 1 else 0) + Count(s[1..], c)
  }

  /** `String.prototype.split(sep)` for a one-character separator. */
  function Split(s: string, sep: char): (parts: seq<string>)
    ensures |parts| == Count(s, sep) + 1
    ensures forall i | 0 <= i < |parts| :: sep !in parts[i]
    ensures Join(parts, sep) == s
  {
    if s == [] then [[]]
    else
      var rest := Split(s[1..], sep);
      if s[0] == sep then
        assert s == [] + [sep] + Join(rest, sep);
        [[]] + rest
      else
        [[s[0]] + rest[0]] + rest[1..]
  }

  /** `Array.prototype.join(sep)`. */
  function Join(parts: seq<string>, sep: char): string {
    if parts == [] then []
    else if |parts| == 1 then parts[0]
    else parts[0] + [sep] + Join(parts[1..], sep)
  }

  lemma {:induction false} SplitNoSeparator(p: string, sep: char)
    requires sep !in p
    ensures Split(p, sep) == [p]
    decreases |p|
  {
    if p != [] {
      SplitNoSeparator(p[1..], sep);
      assert [p[0]] + p[1..] == p;
    }
  }

  /** Splitting at one separator splits each side independently. */
  lemma {:induction false} SplitAppend(a: string, sep: char, t: string)
    ensures Split(a + [sep] + t, sep) == Split(a, sep) + Split(t, sep)
    decreases |a|
  {
    if a == [] {
      assert a + [sep] + t == [sep] + t;
      SplitConsSep(sep, t, sep);
    } else {
      var c, r := a[0], a[1..];
      assert a == [c] + r;
      assert a + [sep] + t == [c] + (r + [sep] + t);
      SplitAppend(r, sep, t);
      var x, y, sa, su := SplitCons(c, r, sep, t);
      SplitStep(c, sep, x, y, sa, su);
    }
  }

  /** The splits `SplitAppend`'s step relates, named. */
  lemma SplitCons(c: char, r: string, sep: char, t: string)
    returns (x: seq<string>, y: seq<string>, sa: seq<string>, su: seq<string>)
    requires Split(r + [sep] + t, sep) == Split(r, sep) + Split(t, sep)
    ensures x == Split(r, sep) && y == Split(t, sep) && sa == Split([c] + r, sep) && su == Split([c] + (r + [sep] + t), sep)
    ensures x != []
    ensures c == sep ==> sa == [[]] + x && su == [[]] + (x + y)
    ensures c != sep ==> sa == [[c] + x[0]] + x[1..] && su == [[c] + (x + y)[0]] + (x + y)[1..]
  {
    x, y, sa, su := Split(r, sep), Split(t, sep), Split([c] + r, sep), Split([c] + (r + [sep] + t), sep);
    assert ([c] + r)[1..] == r;
    assert ([c] + (r + [sep] + t))[1..] == r + [sep] + t;
  }

  /** The step of `SplitAppend` on the pieces alone. */
  lemma SplitStep(c: char, sep: char, x: seq<string>, y: seq<string>, sa: seq<string>, su: seq<string>)
    requires x != []
    requires c == sep ==> sa == [[]] + x && su == [[]] + (x + y)
    requires c != sep ==> sa == [[c] + x[0]] + x[1..] && su == [[c] + (x + y)[0]] + (x + y)[1..]
    ensures su == sa + y
  {
    if c != sep {
      assert (x + y)[0] == x[0] && (x + y)[1..] == x[1..] + y;
    }
  }

  /** A leading separator splits off an empty piece. */
  lemma SplitConsSep(c: char, s: string, sep: char)
    requires c == sep
    ensures Split([c] + s, sep) == [[]] + Split(s, sep)
  {
    assert ([c] + s)[1..] == s;
  }

  /** Splitting a join gives back the pieces, as long as none holds the separator. */
  lemma {:induction false} SplitJoin(parts: seq<string>, sep: char)
    requires |parts| >= 1
    requires forall i | 0 <= i < |parts| :: sep !in parts[i]
    ensures Split(Join(parts, sep), sep) == parts
    decreases |parts|
  {
    if |parts| == 1 {
      SplitNoSeparator(parts[0], sep);
    } else {
      SplitJoin(parts[1..], sep);
      SplitNoSeparator(parts[0], sep);
      SplitAppend(parts[0], sep, Join(parts[1..], sep));
      assert [parts[0]] + parts[1..] == parts;
    }
  }

  predicate IsDigit(c: char) {
    '0' <= c <= '9'
  }

  function DigitChar(d: nat): (c: char)
    requires d < 10
    ensures IsDigit(c)
  {
    ('0' as int + d) as char
  }

  /** `String(n)` for a non-negative integer key: its decimal digits, no leading zero. */
  function DecimalText(n: nat): (r: string)
    ensures r != []
    ensures forall i | 0 <= i < |r| :: IsDigit(r[i])
    ensures |r| > 1 ==> r[0] != '0'
  {
    if n < 10 then [DigitChar(n)] else DecimalText(n / 10) + [DigitChar(n % 10)]
  }

  function DigitValue(c: char): (d: nat)
    requires IsDigit(c)
    ensures d < 10
  {
    c as int - '0' as int
  }

  /** The number a string of decimal digits denotes. */
  function DecimalValue(s: string): nat
    requires forall i | 0 <= i < |s| :: IsDigit(s[i])
  {
    if s == [] then 0 else 10 * DecimalValue(s[..|s| - 1]) + DigitValue(s[|s| - 1])
  }

  /** Reading back the decimal text of a key gives the key. */
  lemma {:induction false} DecimalRoundTrip(n: nat)
    ensures DecimalValue(DecimalText(n)) == n
  {
    if n >= 10 {
      DecimalRoundTrip(n / 10);
      var r := DecimalText(n);
      assert r[..|r| - 1] == DecimalText(n / 10);
    }
  }
}
